=== FILE: README.md ===
# Liquidity-pool indexer core, modelled in Dafny

This project models the accounting core of the event handlers in `src/pools.ts`. The
handlers index a liquidity-pool options contract into a store of entities:

- **pools**: per (lp, poolId). Size, locked and unlocked capital, utilization, net
  deposits, initial balance, P&L (total, template-scoped and as a percentage), and the
  pool's template.
- **templates**: per (curve, criteriaSet) pair. The total size, the pool count and the
  P&L of the pools configured with that pair.
- **records**: per buyer/token, per LP/token and per pool/token. Also the order book of
  purchases.
- **pool snapshots**: one per (lp, poolId, timestamp). Each copies the pool after a
  mutating event, together with the event's amount and action code.

Each handler that can abort is a pure function `Store -> Result<Store, Fault>`. A
`Failure` means the handler aborts. The indexer then commits nothing for the event, so
the store stays as it was. `handleOptionsBought` cannot abort, so its model returns a
`Store`; `Apply` wraps it in `Success`.

Faults come in two kinds:
- the handler reads a field of an entity that was loaded without a null check, and the
  entity is missing;
- a BigDecimal division has a zero divisor (`locked / size`), or a zero or unset divisor
  (`initialBalance`).

The model raises these faults in the order the code reaches them. Amounts are already
converted to decimals and are exact `real`s. Addresses, hashes and timestamps are
naturals. Composite string ids become tuples.

Modules, one per file:
- `Entities`: the data model.
- `Ledger`: per-pool arithmetic.
- `Templates`: the template aggregator.
- `Snapshots`: the snapshot writer.
- `Records`: the record book.
- `Handlers`: one function per event, plus `Apply` and `ApplyAll` over a stream of
  events.
- `Invariants`: the cross-entity invariants, kept by every handled event.
- `History`: properties of whole event streams.
- `Scenario`: a worked four-event history.

Where the code and the documented intent differ, the model follows the code, with the
exceptions listed after this list:

- **Utilization on an empty pool.** Utilization is `locked / size` with no guard. When the
  size becomes zero the division aborts the event (`ZeroPoolSize`). The model does not
  store 0.
- **Snapshot and order-book ids.** These are (lp, poolId, timestamp) and
  (buyer, otoken, timestamp). A second event with the same id replaces the earlier
  entity, so these tables are maps and are not append-only logs.
- **Deposit then withdraw on a fresh pool.** A deposit of `a` followed by a withdrawal of
  `a` leaves `netDeposits == -a`, not 0. The first deposit sets the initial balance
  instead of counting as a net deposit. The withdrawal always counts.
- **First withdrawal, sale or settlement.** A pool without a first deposit has no initial
  balance. The P&L percentage then divides by an unset value, so the event aborts
  (`InitialBalanceUnset`).
- **Settlement collateral.** A settlement releases all of the pool record's collateral
  from `locked`, not only the returned part.

The model departs from the code, or chooses one reading of it, in three places:

- **`PoolRecord.returned`.** The code assigns it and never saves it. That is listed under
  Findings, and the handlers use the corrected behaviour.
- **A pool without a template.** On its first curve or criteria-set selection, the code
  reads fields of a null past template, converts a null hash and loads a template by a
  null id. The model follows the evident intent instead: the pool always joins the
  selected pair, and the half it never had is `None`. See "## Left out".
- **`!==` on template ids.** The model reads it as a comparison of values. See
  "## Left out" for what an identity reading would do.

## Model

| member | source | states |
|---|---|---|
| Entities.Code | src/pools.ts:33-40 | each action's code is the enum value: configuration changes are exactly the negative codes, and the code decodes back to the action |
| Entities.ActionOfCode | src/pools.ts:176 | a stored action code denotes an action exactly when it lies in -2..3 |
| Entities.CreatePool | src/pools.ts:189-202 | a new pool has every balance and P&L figure zero, no initial balance and no template, and it is stored under its own (lp, poolId) |
| Ledger.CalculatePNL | src/pools.ts:212-229 | premium received raises P&L by the amount, exercised capital lowers it by the amount, and every other action leaves it unchanged |
| Ledger.CalculateNetDeposits | src/pools.ts:238-255 | a deposit raises net deposits by the amount, a withdrawal lowers them by the amount, and every other action leaves them unchanged |
| Ledger.Utilization | src/pools.ts:505 | succeeds exactly when size is non-zero (otherwise ZeroPoolSize), and then utilization × size = locked |
| Ledger.PnlPercentage | src/pools.ts:272-278 | an unset initial balance gives InitialBalanceUnset and a zero one gives ZeroInitialBalance; otherwise (pct/100 + 1) × initialBalance = size − netDeposits |
| Ledger.SetAndCalculatePNL | src/pools.ts:264-280 | fails exactly when the initial balance is unset or zero; otherwise only the three P&L fields change, both accumulators move by the same amount (the signed size delta for P&L actions, nothing for the others), and the percentage agrees with the new figures |
| Ledger.ApplyDeposit | src/pools.ts:326-341 | succeeds exactly when the deposit can be booked, and otherwise aborts with ZeroInitialBalance; size and unlocked grow by the amount; the first deposit sets the initial balance to the new size and leaves net deposits alone, and a later one adds to net deposits; P&L totals, locked, the key and the template are kept |
| Ledger.ApplyWithdraw | src/pools.ts:365-375 | succeeds exactly when the pool has a non-zero initial balance, and otherwise aborts with InitialBalanceUnset (none) or ZeroInitialBalance (zero); size, unlocked and net deposits drop by the amount; nothing else but the percentage changes |
| Ledger.ApplySale | src/pools.ts:502-508 | locked grows by the collateral and size by the premium, unlocked = size − locked, utilization × size = locked, both P&L accumulators grow by the premium. It succeeds exactly when the resulting size and the initial balance are non-zero; an empty resulting pool is ZeroPoolSize, and otherwise an unset or zero initial balance gives InitialBalanceUnset or ZeroInitialBalance |
| Ledger.ApplySettlement | src/pools.ts:597-611 | all of the pool's collateral for the token leaves locked, size and both P&L accumulators drop by collateral − returned, unlocked = size − locked, utilization × size = locked. It succeeds exactly when the resulting size and the initial balance are non-zero, with the same faults in the same order as a sale |
| Ledger.ActionKindsSeparate | src/pools.ts:212-255 | for any action, at least one of P&L and net deposits is unchanged: deposits and withdrawals never move P&L, sales and settlements never move net deposits, and configuration actions move neither P&L nor net deposits, nor the size |
| Ledger.DepositThenWithdraw | src/pools.ts:326-375 | a withdrawal of the amount just deposited restores size, unlocked, locked and P&L; net deposits are restored on a pool that had its first deposit and end at −amount on a fresh one |
| Ledger.FirstDeposit | src/pools.ts:329-331 | the first non-zero deposit into a new pool makes size, unlocked and initial balance equal to it, with zero net deposits and zero P&L percentage |
| Templates.UpdateCapitalTemplate | src/pools.ts:71-96 | a pool without a template changes nothing; otherwise it fails exactly when the template is missing, and the template's size moves by the signed amount while its P&L follows CalculatePNL; the pool count and every other template stay the same, and configuration actions change nothing |
| Templates.UpdateConfigPoolTemplate | src/pools.ts:105-148 | reselecting the pool's current pair is a no-op; otherwise the pool joins the (curve, criteriaSet) template, created at zero when absent (count + 1, size + pool size, P&L kept), leaves its past template (count − 1, size − pool size), has its template P&L reset to 0 with no other change, and every other template stays the same |
| Templates.ReassignRoundTrip | src/pools.ts:105-148 | moving a pool from T1 to T2 and back restores T1's size and count, and T2's when it existed before; the pool is again in T1 with its template P&L reset |
| Snapshots.TakeSnapshot | src/pools.ts:164-182 | the snapshot reads back as exactly the pool; it refers to the pool's id and holds the event's timestamp, amount and action code |
| Snapshots.CreatePoolSnapshot | src/pools.ts:158-187 | writes one snapshot under (lp, poolId, timestamp), replacing any earlier one there and keeping the others: it reads back as the pool, refers to the pool's id, and holds the event's timestamp, amount and action code. Then it applies the capital update to the pool's template; it fails exactly when that update does, and nothing else in the store changes |
| Records.RecordPurchase | src/pools.ts:457-474 | the buyer's record for the token (zero, with the buyer and token from the key, when new) grows by exactly the premium and units, and its other fields are kept; other buyer records are untouched |
| Records.CreateOrderBookEntry | src/pools.ts:292-310 | one entry under (buyer, otoken, timestamp) holding the premium and units; other entries are untouched |
| Records.RecordSale | src/pools.ts:517-557 | the LP record and the pool record for the token (zero, with their identifying fields from the key, when new) grow by exactly the premium, collateral and units; every other field of the two records, `returned` included, is kept, and every other record is untouched |
| Records.RecordReturn | src/pools.ts:581-582 | the LP record's collateralized liquidity drops by the returned amount, and no other field changes |
| Records.SettleReturnAsWritten | src/pools.ts:594-595 | as the code stands, the stored pool record's `returned` stays as the sale left it |
| Records.SettleReturn | src/pools.ts:594-595 | corrected: the pool record stores the returned amount, and nothing else in the table changes |
| Handlers.LoadPastTemplate | src/pools.ts:427-439 | a pool without a template has no past template; a template id that does not resolve aborts with MissingTemplate |
| Handlers.HandleDeposited | src/pools.ts:317-350 | succeeds exactly when the deposit can be booked and the pool's template (if any) is stored; otherwise it aborts with ZeroInitialBalance for an unbookable deposit and MissingTemplate for the template. On success the stored pool is ApplyDeposit's result (the pool may be new), and the templates are UpdateCapitalTemplate's result for that pool, the amount and Deposit. Other pools, the records and the order book are untouched |
| Handlers.HandleWithdrawn | src/pools.ts:357-384 | succeeds exactly when ApplyWithdraw accepts the (possibly new) pool and its template (if any) is stored; otherwise it aborts with ApplyWithdraw's fault, then MissingTemplate, so a pool that does not exist aborts with InitialBalanceUnset. On success the stored pool is ApplyWithdraw's result, and the templates are UpdateCapitalTemplate's result for that pool, the amount and Withdraw. The records are untouched |
| Handlers.HandleCurveSelected | src/pools.ts:421-447 | fails only when the pool's template is missing, and may create the pool. On success the templates and the stored pool are UpdateConfigPoolTemplate's result for the new curve and the criteria set of the pool's past template. The records are untouched |
| Handlers.HandleCriteriaSetSelected | src/pools.ts:391-414 | a missing pool aborts (MissingPool), and no pool is ever created. On success the templates and the stored pool are UpdateConfigPoolTemplate's result for the curve of the pool's past template and the new criteria set. The records are untouched |
| Handlers.HandleOptionsBought | src/pools.ts:456-484 | changes only the buyer records and the order book: the buyer records are RecordPurchase's result and the order book is CreateOrderBookEntry's, adding the (buyer, otoken) record and the (buyer, otoken, timestamp) entry |
| Handlers.HandleOptionsSold | src/pools.ts:491-565 | a missing pool aborts (MissingPool); on an existing pool it succeeds exactly when ApplySale does and the pool's template (if any) is stored, and otherwise aborts with ApplySale's fault, then MissingTemplate; no other fault is possible. On success the pool is ApplySale's result, the templates are UpdateCapitalTemplate's result for that pool, the premium and PremiumReceived, and the records are RecordSale's |
| Handlers.HandleOptionSettlementDistributed | src/pools.ts:572-619 | aborts on a missing LP record, then a missing pool record, then a missing pool, in that order. When all three exist it succeeds exactly when ApplySettlement does for the pool record's collateral and the pool's template (if any) is stored, and otherwise aborts with ApplySettlement's fault, then MissingTemplate; no other fault is possible. On success the pool is ApplySettlement's result for the pool record's collateral. The templates are UpdateCapitalTemplate's result for that pool, collateral − returned and CapitalExercised. The LP record loses the returned amount and the pool record stores it |
| Invariants.CapitalStepKeepsConsistent | src/pools.ts:71-96 | a capital action that moves one pool's size by the signed amount, with the same move on its template, keeps every template's size and count equal to the sums over its member pools |
| Invariants.ConfigStepKeepsConsistent | src/pools.ts:105-148 | moving a pool between templates keeps every template's size and count equal to the sums over its member pools |
| Invariants.DepositKeepsConsistent | src/pools.ts:317-350 | a handled deposit keeps unlocked = size − locked, template membership and the template totals |
| Invariants.WithdrawKeepsConsistent | src/pools.ts:357-384 | a handled withdrawal keeps the same invariants |
| Invariants.CurveKeepsConsistent | src/pools.ts:421-447 | on a consistent store a curve selection never aborts and keeps the invariants |
| Invariants.CriteriaSetKeepsConsistent | src/pools.ts:391-414 | on a consistent store a criteria-set selection succeeds exactly when the pool exists, and keeps the invariants |
| Invariants.CurveSelectionJoins | src/pools.ts:421-439 | on a consistent store a curve selection succeeds and the pool ends up in the template of (new curve, the criteria set it already had, or none). A pool that changes template has its template P&L reset to 0 and nothing else changed; one that reselects its own pair is left as it was |
| Invariants.CriteriaSetSelectionJoins | src/pools.ts:391-406 | on a consistent store a criteria-set selection on an existing pool succeeds and the pool ends up in the template of (the curve it already had, or none; new criteria set), with the same P&L reset |
| Invariants.DepositSucceeds | src/pools.ts:317-350 | on a consistent store a deposit succeeds exactly when it can be booked (a non-zero initial balance, or a non-zero first deposit) |
| Invariants.WithdrawSucceeds | src/pools.ts:357-384 | on a consistent store a withdrawal succeeds exactly when the pool has a non-zero initial balance |
| Invariants.SaleSucceeds | src/pools.ts:491-508 | on a consistent store a sale succeeds exactly when the pool exists and the pool arithmetic (size after the premium, initial balance) has no zero or unset divisor |
| Invariants.SettlementSucceeds | src/pools.ts:572-611 | on a consistent store a settlement distribution succeeds exactly when the LP record, the pool record and the pool exist and the pool arithmetic has no zero or unset divisor |
| Invariants.SaleKeepsConsistent | src/pools.ts:491-515 | a handled sale keeps the invariants |
| Invariants.SettlementKeepsConsistent | src/pools.ts:572-619 | a handled settlement distribution keeps the invariants |
| Invariants.ApplyKeepsConsistent | src/pools.ts:317-619 | every handled event keeps the invariants |
| Invariants.ApplyAllKeepsConsistent | src/pools.ts:317-619 | a stream handled to the end keeps the invariants |
| Invariants.HistoryConsistent | src/pools.ts:71-148 | after any history handled from the empty store, every pool has unlocked = size − locked, every referenced template exists, and each template's size and pool count equal the sums over the pools assigned to it |
| History.TallyStep | src/pools.ts:456-584 | each handled event moves every buyer, LP and pool record total by exactly that event's contribution |
| History.TallyAccumulates | src/pools.ts:456-584 | over a handled history, every record total is its starting value plus the sum of the events' contributions |
| History.SnapshotStep | src/pools.ts:158-187 | each handled pool event leaves one snapshot under (lp, poolId, timestamp) that reads back as the stored pool, refers to that pool's id and holds the event's timestamp, action and amount (premium for sales, lost collateral for settlements, zero for selections); other snapshots are untouched and purchases write none |
| History.SnapshotKeysAccumulate | src/pools.ts:164-165 | a handled history adds exactly one snapshot key per distinct (lp, poolId, timestamp) among its pool events |
| History.OrderBookStep | src/pools.ts:292-310 | each purchase adds or replaces exactly its own order-book entry, which holds its buyer, token, premium, units and timestamp; no other event touches the order book |
| Scenario.WorkedScenario | src/pools.ts:317-619 | on a pool that does not yet exist, deposit 100, deposit 50, sale (premium 10, collateral 80) and settlement (returned 70) all succeed. Size runs 100/150/160/150, locked 0/0/80/0, net deposits 0/50/50/50 and P&L percentage 0/0/10/0; utilization is 0.5 after the sale and 0 after the settlement |

## Left out

- `src/token.ts` (`collateralFixedtoDecimals`): amounts enter the model already as exact decimals. BigDecimal precision and rounding are not modelled.
- `src/otoken.ts` is not part of this model. So `oTokenFixedtoDecimals`, `oTokenIncrementPurchasesCount`, `oTokenIncrementLiquidity`, `oTokenSettled` and `getOTokenIdFromAddress` are left out. A record's `otoken` field holds the token's address.
- `handleOptionsSettled` (src/pools.ts:626-628): it only forwards to `oTokenSettled` and touches nothing in this core.
- `src/curves.ts`: curve entities are not part of this core.
- Id strings (src/pools.ts:42-64, 299-300): composite ids are tuples. Each hex component carries its own `0x` prefix, so the concatenated strings are as distinct as the tuples.
- Intermediate `save()` calls before an abort: a failing handler commits nothing, so only each event's final state is modelled.
- Handlers.HandleCurveSelected: on a pool without a template, the code passes a null past template and a null criteria set. `updateConfigPoolTemplate` reads the null template's fields before its null test (src/pools.ts:113-115). The model follows the evident intent of the third disjunct: a pool without a template always takes the new pair, and the missing half of the pair is `None`. `Template.load` of a null id (src/pools.ts:394, 427) and `Bytes.fromHexString` of null are not modelled.
- Handlers.HandleCriteriaSetSelected: the same null-template reading as for curve selection applies.
- Templates.UpdateConfigPoolTemplate: `!==` on the curve and criteria-set ids is read as a comparison of values. Under an identity reading (AssemblyScript before 0.20 compared strings that way), reselecting the pool's current pair is not a no-op. The template is reloaded and saved with count + 1 and size + pool size, and then the stale past-template object is saved over it with count − 1 and size − pool size. The model does not promise that behaviour.
- Entities.Code: the action code is stored as an unbounded integer, not as a graph-ts `BigInt`.
- Invariants.HistoryConsistent: the template's P&L is not tied to its members. Reassignment resets the pool's template P&L without moving the template's, so no such sum holds in the code.

## Findings

| source | as written | input that shows it | evidently intended | confidence | as-written member | corrected member |
|---|---|---|---|---|---|---|
| src/pools.ts:594-595 | `handleOptionSettlementDistributed` assigns `poolRecord.returned` but never calls `poolRecord.save()`, so the stored pool record never records the returned collateral | a settlement distribution returning 70 on a pool record whose `returned` is unset: afterwards `returned` is still unset (Records.ReturnedLostAsWritten) | the pool record stores the collateral returned to it | medium, not executed | Records.SettleReturnAsWritten | Records.SettleReturn |

=== FILE: entities.dfy ===
/** The entities of the pool accounting store, their composite keys and the action kinds. */
module Entities {
  import opened Wrappers

  /** An account or token address (20 bytes on chain); only its identity matters here. */
  type Address = nat
  /** A 32-byte curve or criteria-set hash; only its identity matters here. */
  type Hash = nat
  /** Block timestamp, epoch seconds. */
  type Timestamp = nat

  /** The kinds of change recorded on a pool snapshot. PREMIUM_RECIEVED keeps the
      meaning of the source's misspelt member. */
  datatype Action =
    | CurveChange
    | CriteriaSetChange
    | Deposit
    | Withdraw
    | PremiumReceived
    | CapitalExercised

  /** Configuration actions carry no amount and only move a pool between templates. */
  predicate IsConfig(a: Action) {
    a == CurveChange || a == CriteriaSetChange
  }

  /** The numeric value the enum assigns to each action, which snapshots store. */
  function Code(a: Action): (c: int)
    ensures -2 <= c <= 3
    ensures IsConfig(a) <==> c < 0
    ensures ActionOfCode(c) == Some(a)
  {
    match a
    case CurveChange => -2
    case CriteriaSetChange => -1
    case Deposit => 0
    case Withdraw => 1
    case PremiumReceived => 2
    case CapitalExercised => 3
  }

  /** Reads a stored action code back; codes outside the enum denote no action. */
  function ActionOfCode(c: int): (r: Option<Action>)
    ensures r.Some? <==> -2 <= c <= 3
  {
    if c == -2 then Some(CurveChange)
    else if c == -1 then Some(CriteriaSetChange)
    else if c == 0 then Some(Deposit)
    else if c == 1 then Some(Withdraw)
    else if c == 2 then Some(PremiumReceived)
    else if c == 3 then Some(CapitalExercised)
    else None
  }

  /** Composite keys. The source concatenates the components' strings in this order:
      hex strings that each start with `0x`, and for the order book a decimal timestamp
      last. Each component's start is therefore recoverable, so tuples stand for those
      strings. */
  datatype PoolKey = PoolKey(lp: Address, poolId: nat)
  /** Either half is absent until the pool's first curve or criteria-set selection. */
  datatype TemplateKey = TemplateKey(curve: Option<Hash>, criteriaSet: Option<Hash>)
  datatype BuyerKey = BuyerKey(buyer: Address, otoken: Address)
  datatype LPKey = LPKey(lp: Address, otoken: Address)
  datatype PoolRecordKey = PoolRecordKey(lp: Address, poolId: nat, otoken: Address)
  datatype SnapshotKey = SnapshotKey(lp: Address, poolId: nat, timestamp: Timestamp)
  datatype OrderKey = OrderKey(buyer: Address, otoken: Address, timestamp: Timestamp)

  /** A liquidity provider's pool. `initialBalance` stays unset until the first deposit;
      `template` is unset until the first curve or criteria-set selection. */
  datatype Pool = Pool(
    lp: Address,
    poolId: nat,
    size: real,
    locked: real,
    unlocked: real,
    utilization: real,
    netDeposits: real,
    initialBalance: Option<real>,
    pnlTotal: real,
    pnlTemplate: real,
    pnlPercentage: real,
    template: Option<TemplateKey>)

  function KeyOfPool(p: Pool): PoolKey {
    PoolKey(p.lp, p.poolId)
  }

  /** Aggregate over every pool currently configured with (curve, criteriaSet). */
  datatype Template = Template(
    curve: Option<Hash>,
    criteriaSet: Option<Hash>,
    size: real,
    numPools: int,
    pnl: real)

  /** A template's id is built from its own curve and criteria-set fields. */
  function KeyOfTemplate(t: Template): TemplateKey {
    TemplateKey(t.curve, t.criteriaSet)
  }

  datatype BuyerRecord = BuyerRecord(
    buyer: Address,
    otoken: Address,
    premium: real,
    numberOfOTokens: real)

  datatype LPRecord = LPRecord(
    lp: Address,
    otoken: Address,
    numberOfOTokens: real,
    liquidityCollateralized: real,
    premiumReceived: real)

  /** `returned` is unset on creation. */
  datatype PoolRecord = PoolRecord(
    pool: PoolKey,
    lpRecord: LPKey,
    otoken: Address,
    collateral: real,
    premiumReceived: real,
    numberOfOTokens: real,
    returned: Option<real>)

  datatype OrderBookEntry = OrderBookEntry(
    buyer: Address,
    otoken: Address,
    premium: real,
    numberOfOTokens: real,
    timestamp: Timestamp)

  /** A copy of a pool's fields at one event, with the amount and kind of that event. */
  datatype PoolSnapshot = PoolSnapshot(
    poolId: nat,
    lp: Address,
    size: real,
    locked: real,
    unlocked: real,
    utilization: real,
    template: Option<TemplateKey>,
    timestamp: Timestamp,
    actionAmount: real,
    actionType: int,
    currentPool: PoolKey,
    pnlTotal: real,
    pnlTemplate: real,
    pnlPercentage: real,
    netDeposits: real,
    initialBalance: Option<real>)

  /** The entity store: one key-addressed table per entity. */
  datatype Store = Store(
    pools: map<PoolKey, Pool>,
    templates: map<TemplateKey, Template>,
    buyerRecords: map<BuyerKey, BuyerRecord>,
    lpRecords: map<LPKey, LPRecord>,
    poolRecords: map<PoolRecordKey, PoolRecord>,
    snapshots: map<SnapshotKey, PoolSnapshot>,
    orderBook: map<OrderKey, OrderBookEntry>)

  const EmptyStore := Store(map[], map[], map[], map[], map[], map[], map[])

  /** Why an event is rejected: a load the handler never null-checks came back empty,
      or a BigDecimal division had a zero (or unset) divisor. */
  datatype Fault =
    | MissingPool
    | MissingTemplate
    | MissingLPRecord
    | MissingPoolRecord
    | ZeroPoolSize
    | InitialBalanceUnset
    | ZeroInitialBalance

  /** A pool as first created: every balance and P&L figure zero, no initial balance,
      no template. */
  function CreatePool(lp: Address, poolId: nat): (p: Pool)
    ensures KeyOfPool(p) == PoolKey(lp, poolId)
    ensures p.size == 0.0 && p.locked == 0.0 && p.unlocked == p.size - p.locked
    ensures p.utilization == 0.0 && p.netDeposits == 0.0 && p.pnlPercentage == 0.0
    ensures p.pnlTotal == 0.0 && p.pnlTemplate == 0.0
    ensures p.initialBalance.None? && p.template.None?
  {
    Pool(lp, poolId, 0.0, 0.0, 0.0, 0.0, 0.0, None, 0.0, 0.0, 0.0, None)
  }

  /** The stored pool under `key`, or a fresh one when there is none. */
  function LoadOrCreatePool(pools: map<PoolKey, Pool>, key: PoolKey): Pool {
    if key in pools then pools[key] else CreatePool(key.lp, key.poolId)
  }
}

=== FILE: handlers.dfy ===
/** The event handlers: each decoded event is one all-or-nothing transition of the store.
    A Failure stands for the handler aborting, in which case nothing is committed. */
module Handlers {
  import opened Wrappers
  import opened Entities
  import opened Ledger
  import opened Templates
  import opened Snapshots
  import opened Records

  /** The decoded events of the liquidity-pool contract this core consumes; amounts are
      already converted to decimals. */
  datatype Event =
    | Deposited(lp: Address, poolId: nat, amount: real, timestamp: Timestamp)
    | Withdrawn(lp: Address, poolId: nat, amount: real, timestamp: Timestamp)
    | CurveSelected(lp: Address, poolId: nat, curve: Hash, timestamp: Timestamp)
    | CriteriaSetSelected(lp: Address, poolId: nat, criteriaSet: Hash, timestamp: Timestamp)
    | OptionsBought(buyer: Address, otoken: Address, units: real, premium: real, timestamp: Timestamp)
    | OptionsSold(lp: Address, poolId: nat, otoken: Address, units: real, premium: real,
                  collateral: real, timestamp: Timestamp)
    | OptionSettlementDistributed(lp: Address, poolId: nat, otoken: Address,
                                  collateralReturned: real, timestamp: Timestamp)

  /** Only pool tables and the snapshot table change; records and the order book stay. */
  ghost predicate PoolEventFrame(s: Store, s': Store, key: PoolKey) {
    && s'.buyerRecords == s.buyerRecords
    && s'.orderBook == s.orderBook
    && s'.pools.Keys == s.pools.Keys + {key}
    && (forall k :: k in s.pools && k != key ==> s'.pools[k] == s.pools[k])
  }

  /** The template a pool currently belongs to, loaded from the store; a pool whose
      template id does not resolve aborts the event when the template is read. */
  function LoadPastTemplate(templates: map<TemplateKey, Template>, pool: Pool): (r: Result<Option<Template>, Fault>)
    ensures pool.template.None? ==> r == Success(None)
    ensures pool.template.Some? && pool.template.value in templates ==> r == Success(Some(templates[pool.template.value]))
    ensures pool.template.Some? && pool.template.value !in templates ==> r == Failure(MissingTemplate)
  {
    match pool.template
    case None => Success(None)
    case Some(t) => if t in templates then Success(Some(templates[t])) else Failure(MissingTemplate)
  }

  /** handleDeposited. Deposits may create the pool. */
  function HandleDeposited(s: Store, lp: Address, poolId: nat, amount: real, timestamp: Timestamp)
    : (r: Result<Store, Fault>)
    ensures !DepositAccepted(LoadOrCreatePool(s.pools, PoolKey(lp, poolId)), amount) ==> r.Failure?
    ensures r.Failure? ==> r.error == ZeroInitialBalance || r.error == MissingTemplate
    ensures
      var before := LoadOrCreatePool(s.pools, PoolKey(lp, poolId));
      && (r.Success? <==> DepositAccepted(before, amount) && TemplateResolves(s.templates, before))
      && (r.Failure? ==> r.error == if DepositAccepted(before, amount) then MissingTemplate else ZeroInitialBalance)
    ensures r.Success? ==> PoolEventFrame(s, r.value, PoolKey(lp, poolId))
    ensures r.Success? ==> r.value.lpRecords == s.lpRecords && r.value.poolRecords == s.poolRecords
    ensures r.Success? ==>
      var before := LoadOrCreatePool(s.pools, PoolKey(lp, poolId));
      ApplyDeposit(before, amount).Success? && r.value.pools[PoolKey(lp, poolId)] == ApplyDeposit(before, amount).value
    ensures r.Success? ==>
      var pool := r.value.pools[PoolKey(lp, poolId)];
      UpdateCapitalTemplate(s.templates, pool, amount, Deposit).Success?
      && r.value.templates == UpdateCapitalTemplate(s.templates, pool, amount, Deposit).value
  {
    var key := PoolKey(lp, poolId);
    var pool :- ApplyDeposit(LoadOrCreatePool(s.pools, key), amount);
    CreatePoolSnapshot(s.(pools := s.pools[key := pool]), pool, timestamp, amount, Deposit)
  }

  /** handleWithdrawn. A withdrawal may create the pool, but a pool without a first
      deposit has no initial balance and the P&L percentage aborts the event. */
  function HandleWithdrawn(s: Store, lp: Address, poolId: nat, amount: real, timestamp: Timestamp)
    : (r: Result<Store, Fault>)
    ensures PoolKey(lp, poolId) !in s.pools ==> r == Failure(InitialBalanceUnset)
    ensures r.Failure? ==> r.error == InitialBalanceUnset || r.error == ZeroInitialBalance || r.error == MissingTemplate
    ensures
      var before := LoadOrCreatePool(s.pools, PoolKey(lp, poolId));
      var pool := ApplyWithdraw(before, amount);
      && (r.Success? <==> pool.Success? && TemplateResolves(s.templates, before))
      && (r.Failure? ==> r.error == if pool.Failure? then pool.error else MissingTemplate)
    ensures r.Success? ==> PoolEventFrame(s, r.value, PoolKey(lp, poolId))
    ensures r.Success? ==> r.value.lpRecords == s.lpRecords && r.value.poolRecords == s.poolRecords
    ensures r.Success? ==>
      var before := LoadOrCreatePool(s.pools, PoolKey(lp, poolId));
      ApplyWithdraw(before, amount).Success? && r.value.pools[PoolKey(lp, poolId)] == ApplyWithdraw(before, amount).value
    ensures r.Success? ==>
      var pool := r.value.pools[PoolKey(lp, poolId)];
      UpdateCapitalTemplate(s.templates, pool, amount, Withdraw).Success?
      && r.value.templates == UpdateCapitalTemplate(s.templates, pool, amount, Withdraw).value
  {
    var key := PoolKey(lp, poolId);
    var pool :- ApplyWithdraw(LoadOrCreatePool(s.pools, key), amount);
    CreatePoolSnapshot(s.(pools := s.pools[key := pool]), pool, timestamp, amount, Withdraw)
  }

  /** handleCurveSelected: keeps the pool's criteria set, takes the new curve. May
      create the pool. */
  function HandleCurveSelected(s: Store, lp: Address, poolId: nat, curve: Hash, timestamp: Timestamp)
    : (r: Result<Store, Fault>)
    ensures r.Failure? ==> r.error == MissingTemplate
    ensures r.Success? ==> PoolEventFrame(s, r.value, PoolKey(lp, poolId))
    ensures r.Success? ==> r.value.lpRecords == s.lpRecords && r.value.poolRecords == s.poolRecords
    ensures r.Success? ==>
      var pool := LoadOrCreatePool(s.pools, PoolKey(lp, poolId));
      && LoadPastTemplate(s.templates, pool).Success?
      && var past := LoadPastTemplate(s.templates, pool).value;
         var criteriaSet := if past.Some? then past.value.criteriaSet else None;
         (r.value.templates, r.value.pools[PoolKey(lp, poolId)])
           == UpdateConfigPoolTemplate(s.templates, pool, past, Some(curve), criteriaSet)
  {
    var key := PoolKey(lp, poolId);
    var pool := LoadOrCreatePool(s.pools, key);
    var past :- LoadPastTemplate(s.templates, pool);
    var criteriaSet := if past.Some? then past.value.criteriaSet else None;
    var (templates, pool') := UpdateConfigPoolTemplate(s.templates, pool, past, Some(curve), criteriaSet);
    CreatePoolSnapshot(s.(pools := s.pools[key := pool'], templates := templates), pool', timestamp, 0.0, CurveChange)
  }

  /** handleCriteriaSetSelected: keeps the pool's curve, takes the new criteria set. The
      pool is loaded without a null check, so it must already exist. */
  function HandleCriteriaSetSelected(s: Store, lp: Address, poolId: nat, criteriaSet: Hash, timestamp: Timestamp)
    : (r: Result<Store, Fault>)
    ensures PoolKey(lp, poolId) !in s.pools ==> r == Failure(MissingPool)
    ensures r.Failure? ==> r.error == MissingPool || r.error == MissingTemplate
    ensures r.Success? ==> PoolEventFrame(s, r.value, PoolKey(lp, poolId))
    ensures r.Success? ==> r.value.pools.Keys == s.pools.Keys
    ensures r.Success? ==> r.value.lpRecords == s.lpRecords && r.value.poolRecords == s.poolRecords
    ensures r.Success? ==>
      var pool := s.pools[PoolKey(lp, poolId)];
      && LoadPastTemplate(s.templates, pool).Success?
      && var past := LoadPastTemplate(s.templates, pool).value;
         var curve := if past.Some? then past.value.curve else None;
         (r.value.templates, r.value.pools[PoolKey(lp, poolId)])
           == UpdateConfigPoolTemplate(s.templates, pool, past, curve, Some(criteriaSet))
  {
    var key := PoolKey(lp, poolId);
    if key !in s.pools then Failure(MissingPool)
    else
      var pool := s.pools[key];
      var past :- LoadPastTemplate(s.templates, pool);
      var curve := if past.Some? then past.value.curve else None;
      var (templates, pool') := UpdateConfigPoolTemplate(s.templates, pool, past, curve, Some(criteriaSet));
      CreatePoolSnapshot(s.(pools := s.pools[key := pool'], templates := templates), pool', timestamp, 0.0, CriteriaSetChange)
  }

  /** handleOptionsBought: the buyer's totals and the order book; never aborts. */
  function HandleOptionsBought(s: Store, buyer: Address, otoken: Address, units: real, premium: real, timestamp: Timestamp)
    : (r: Store)
    ensures r.(buyerRecords := s.buyerRecords, orderBook := s.orderBook) == s
    ensures r.orderBook.Keys == s.orderBook.Keys + {OrderKey(buyer, otoken, timestamp)}
    ensures r.buyerRecords.Keys == s.buyerRecords.Keys + {BuyerKey(buyer, otoken)}
    ensures r.buyerRecords == RecordPurchase(s.buyerRecords, buyer, otoken, units, premium)
    ensures r.orderBook == CreateOrderBookEntry(s.orderBook, buyer, otoken, premium, units, timestamp)
  {
    s.(buyerRecords := RecordPurchase(s.buyerRecords, buyer, otoken, units, premium),
       orderBook := CreateOrderBookEntry(s.orderBook, buyer, otoken, premium, units, timestamp))
  }

  /** handleOptionsSold: the pool (which must exist), its snapshot and template, then the
      provider's and the pool's records for the token. */
  function HandleOptionsSold(s: Store, lp: Address, poolId: nat, otoken: Address, units: real,
                             premium: real, collateral: real, timestamp: Timestamp)
    : (r: Result<Store, Fault>)
    ensures PoolKey(lp, poolId) !in s.pools ==> r == Failure(MissingPool)
    ensures PoolKey(lp, poolId) in s.pools && s.pools[PoolKey(lp, poolId)].size + premium == 0.0 ==> r == Failure(ZeroPoolSize)
    ensures r.Failure? ==>
      || r.error == MissingPool || r.error == ZeroPoolSize
      || r.error == InitialBalanceUnset || r.error == ZeroInitialBalance || r.error == MissingTemplate
    ensures PoolKey(lp, poolId) in s.pools ==>
      var before := s.pools[PoolKey(lp, poolId)];
      var pool := ApplySale(before, premium, collateral);
      && (r.Success? <==> pool.Success? && TemplateResolves(s.templates, before))
      && (r.Failure? ==> r.error == if pool.Failure? then pool.error else MissingTemplate)
    ensures r.Success? ==> PoolEventFrame(s, r.value, PoolKey(lp, poolId))
    ensures r.Success? ==> r.value.pools.Keys == s.pools.Keys
    ensures r.Success? ==>
      (r.value.lpRecords, r.value.poolRecords)
        == RecordSale(s.lpRecords, s.poolRecords, lp, poolId, otoken, units, premium, collateral)
    ensures r.Success? ==>
      var before := s.pools[PoolKey(lp, poolId)];
      ApplySale(before, premium, collateral).Success?
      && r.value.pools[PoolKey(lp, poolId)] == ApplySale(before, premium, collateral).value
    ensures r.Success? ==>
      var pool := r.value.pools[PoolKey(lp, poolId)];
      UpdateCapitalTemplate(s.templates, pool, premium, PremiumReceived).Success?
      && r.value.templates == UpdateCapitalTemplate(s.templates, pool, premium, PremiumReceived).value
  {
    var key := PoolKey(lp, poolId);
    if key !in s.pools then Failure(MissingPool)
    else
      var pool :- ApplySale(s.pools[key], premium, collateral);
      var s1 :- CreatePoolSnapshot(s.(pools := s.pools[key := pool]), pool, timestamp, premium, PremiumReceived);
      var (lpRecords, poolRecords) := RecordSale(s1.lpRecords, s1.poolRecords, lp, poolId, otoken, units, premium, collateral);
      Success(s1.(lpRecords := lpRecords, poolRecords := poolRecords))
  }

  /** handleOptionSettlementDistributed: needs the provider's record, the pool's record
      and the pool, in that order. The pool gives up all of the pool record's collateral
      from `locked`; the unreturned part is lost. The pool record keeps the returned
      amount (see SettleReturn for how this differs from the code as written). */
  function HandleOptionSettlementDistributed(s: Store, lp: Address, poolId: nat, otoken: Address,
                                             returned: real, timestamp: Timestamp)
    : (r: Result<Store, Fault>)
    ensures LPKey(lp, otoken) !in s.lpRecords ==> r == Failure(MissingLPRecord)
    ensures (LPKey(lp, otoken) in s.lpRecords && PoolRecordKey(lp, poolId, otoken) !in s.poolRecords)
            ==> r == Failure(MissingPoolRecord)
    ensures (LPKey(lp, otoken) in s.lpRecords && PoolRecordKey(lp, poolId, otoken) in s.poolRecords
             && PoolKey(lp, poolId) !in s.pools) ==> r == Failure(MissingPool)
    ensures r.Failure? ==>
      || r.error == MissingLPRecord || r.error == MissingPoolRecord || r.error == MissingPool
      || r.error == ZeroPoolSize || r.error == InitialBalanceUnset || r.error == ZeroInitialBalance
      || r.error == MissingTemplate
    ensures (LPKey(lp, otoken) in s.lpRecords && PoolRecordKey(lp, poolId, otoken) in s.poolRecords
             && PoolKey(lp, poolId) in s.pools) ==>
      var before := s.pools[PoolKey(lp, poolId)];
      var pool := ApplySettlement(before, s.poolRecords[PoolRecordKey(lp, poolId, otoken)].collateral, returned);
      && (r.Success? <==> pool.Success? && TemplateResolves(s.templates, before))
      && (r.Failure? ==> r.error == if pool.Failure? then pool.error else MissingTemplate)
    ensures r.Success? ==> PoolEventFrame(s, r.value, PoolKey(lp, poolId))
    ensures r.Success? ==> r.value.pools.Keys == s.pools.Keys
    ensures r.Success? ==>
      r.value.poolRecords == SettleReturn(s.poolRecords, PoolRecordKey(lp, poolId, otoken), returned)
    ensures r.Success? ==> r.value.lpRecords == s.lpRecords[LPKey(lp, otoken) := RecordReturn(s.lpRecords[LPKey(lp, otoken)], returned)]
    ensures r.Success? ==>
      var before := s.pools[PoolKey(lp, poolId)];
      var poolCollateral := s.poolRecords[PoolRecordKey(lp, poolId, otoken)].collateral;
      ApplySettlement(before, poolCollateral, returned).Success?
      && r.value.pools[PoolKey(lp, poolId)] == ApplySettlement(before, poolCollateral, returned).value
    ensures r.Success? ==>
      var pool := r.value.pools[PoolKey(lp, poolId)];
      var lost := s.poolRecords[PoolRecordKey(lp, poolId, otoken)].collateral - returned;
      UpdateCapitalTemplate(s.templates, pool, lost, CapitalExercised).Success?
      && r.value.templates == UpdateCapitalTemplate(s.templates, pool, lost, CapitalExercised).value
  {
    var lpKey := LPKey(lp, otoken);
    if lpKey !in s.lpRecords then Failure(MissingLPRecord)
    else
      var lpRecords := s.lpRecords[lpKey := RecordReturn(s.lpRecords[lpKey], returned)];
      var prKey := PoolRecordKey(lp, poolId, otoken);
      if prKey !in s.poolRecords then Failure(MissingPoolRecord)
      else
        var poolCollateral := s.poolRecords[prKey].collateral;
        var key := PoolKey(lp, poolId);
        if key !in s.pools then Failure(MissingPool)
        else
          var pool :- ApplySettlement(s.pools[key], poolCollateral, returned);
          var poolRecords := SettleReturn(s.poolRecords, prKey, returned);
          CreatePoolSnapshot(s.(lpRecords := lpRecords, poolRecords := poolRecords, pools := s.pools[key := pool]),
                             pool, timestamp, poolCollateral - returned, CapitalExercised)
  }

  /** Routes one event to its handler. */
  function Apply(s: Store, e: Event): Result<Store, Fault> {
    match e
    case Deposited(lp, poolId, amount, ts) => HandleDeposited(s, lp, poolId, amount, ts)
    case Withdrawn(lp, poolId, amount, ts) => HandleWithdrawn(s, lp, poolId, amount, ts)
    case CurveSelected(lp, poolId, curve, ts) => HandleCurveSelected(s, lp, poolId, curve, ts)
    case CriteriaSetSelected(lp, poolId, criteriaSet, ts) => HandleCriteriaSetSelected(s, lp, poolId, criteriaSet, ts)
    case OptionsBought(buyer, otoken, units, premium, ts) => Success(HandleOptionsBought(s, buyer, otoken, units, premium, ts))
    case OptionsSold(lp, poolId, otoken, units, premium, collateral, ts) =>
      HandleOptionsSold(s, lp, poolId, otoken, units, premium, collateral, ts)
    case OptionSettlementDistributed(lp, poolId, otoken, returned, ts) =>
      HandleOptionSettlementDistributed(s, lp, poolId, otoken, returned, ts)
  }

  /** Applies events in delivery order; the first aborted event stops the stream. */
  function ApplyAll(s: Store, events: seq<Event>): Result<Store, Fault>
    decreases |events|
  {
    if |events| == 0 then Success(s)
    else
      var s1 :- Apply(s, events[0]);
      ApplyAll(s1, events[1..])
  }
}

=== FILE: history.dfy ===
/** Properties of whole event histories: record totals are running sums of the events
    that name them, and each pool event leaves exactly one snapshot of the pool's
    post-event state under (lp, poolId, timestamp). */
module History {
  import opened Wrappers
  import opened Entities
  import opened Snapshots
  import opened Records
  import opened Handlers
  import opened Invariants

  /** A running total kept by the record book. */
  datatype Tally =
    | BuyerPremium(bk: BuyerKey)
    | BuyerUnits(bk: BuyerKey)
    | LPPremium(lk: LPKey)
    | LPUnits(lk: LPKey)
    | LPCollateral(lk: LPKey)
    | PoolPremium(pk: PoolRecordKey)
    | PoolUnits(pk: PoolRecordKey)
    | PoolCollateral(pk: PoolRecordKey)

  /** The total as stored, zero while its record does not exist. */
  function Tallied(s: Store, q: Tally): real {
    match q
    case BuyerPremium(k) => LoadOrCreateBuyerRecord(s.buyerRecords, k).premium
    case BuyerUnits(k) => LoadOrCreateBuyerRecord(s.buyerRecords, k).numberOfOTokens
    case LPPremium(k) => LoadOrCreateLPRecord(s.lpRecords, k).premiumReceived
    case LPUnits(k) => LoadOrCreateLPRecord(s.lpRecords, k).numberOfOTokens
    case LPCollateral(k) => LoadOrCreateLPRecord(s.lpRecords, k).liquidityCollateralized
    case PoolPremium(k) => LoadOrZeroPoolRecord(s.poolRecords, k).premiumReceived
    case PoolUnits(k) => LoadOrZeroPoolRecord(s.poolRecords, k).numberOfOTokens
    case PoolCollateral(k) => LoadOrZeroPoolRecord(s.poolRecords, k).collateral
  }

  /** What one event adds to a total, read off the event alone: purchases feed the
      buyer's totals, sales the provider's and the pool's, and a settlement distribution
      takes the returned collateral off the provider's collateralized liquidity only. */
  function Contribution(e: Event, q: Tally): real {
    match q
    case BuyerPremium(k) => if e.OptionsBought? && BuyerKey(e.buyer, e.otoken) == k then e.premium else 0.0
    case BuyerUnits(k) => if e.OptionsBought? && BuyerKey(e.buyer, e.otoken) == k then e.units else 0.0
    case LPPremium(k) => if e.OptionsSold? && LPKey(e.lp, e.otoken) == k then e.premium else 0.0
    case LPUnits(k) => if e.OptionsSold? && LPKey(e.lp, e.otoken) == k then e.units else 0.0
    case LPCollateral(k) =>
      if e.OptionsSold? && LPKey(e.lp, e.otoken) == k then e.collateral
      else if e.OptionSettlementDistributed? && LPKey(e.lp, e.otoken) == k then -e.collateralReturned
      else 0.0
    case PoolPremium(k) => if e.OptionsSold? && PoolRecordKey(e.lp, e.poolId, e.otoken) == k then e.premium else 0.0
    case PoolUnits(k) => if e.OptionsSold? && PoolRecordKey(e.lp, e.poolId, e.otoken) == k then e.units else 0.0
    case PoolCollateral(k) =>
      if e.OptionsSold? && PoolRecordKey(e.lp, e.poolId, e.otoken) == k then e.collateral else 0.0
  }

  function SumContributions(events: seq<Event>, q: Tally): real
    decreases |events|
  {
    if |events| == 0 then 0.0 else Contribution(events[0], q) + SumContributions(events[1..], q)
  }

  /** Events that leave the three record tables alone leave every total alone. */
  lemma TallyFramed(s: Store, s': Store, q: Tally)
    requires s'.buyerRecords == s.buyerRecords && s'.lpRecords == s.lpRecords && s'.poolRecords == s.poolRecords
    ensures Tallied(s', q) == Tallied(s, q)
  {
  }

  lemma TallySale(s: Store, lp: Address, poolId: nat, otoken: Address, units: real, premium: real,
                  collateral: real, ts: Timestamp, q: Tally)
    requires HandleOptionsSold(s, lp, poolId, otoken, units, premium, collateral, ts).Success?
    ensures
      Tallied(HandleOptionsSold(s, lp, poolId, otoken, units, premium, collateral, ts).value, q)
      == Tallied(s, q) + Contribution(OptionsSold(lp, poolId, otoken, units, premium, collateral, ts), q)
  {
    var s' := HandleOptionsSold(s, lp, poolId, otoken, units, premium, collateral, ts).value;
    var (lpRecords, poolRecords) := RecordSale(s.lpRecords, s.poolRecords, lp, poolId, otoken, units, premium, collateral);
    assert s'.lpRecords == lpRecords && s'.poolRecords == poolRecords && s'.buyerRecords == s.buyerRecords;
    TallySaleRecords(s, s', lp, poolId, otoken, units, premium, collateral, ts, q);
  }

  lemma TallySaleRecords(s: Store, s': Store, lp: Address, poolId: nat, otoken: Address, units: real, premium: real,
                         collateral: real, ts: Timestamp, q: Tally)
    requires s'.buyerRecords == s.buyerRecords
    requires (s'.lpRecords, s'.poolRecords)
      == RecordSale(s.lpRecords, s.poolRecords, lp, poolId, otoken, units, premium, collateral)
    ensures Tallied(s', q) == Tallied(s, q) + Contribution(OptionsSold(lp, poolId, otoken, units, premium, collateral, ts), q)
  {
  }

  lemma TallySettlement(s: Store, lp: Address, poolId: nat, otoken: Address, returned: real, ts: Timestamp, q: Tally)
    requires HandleOptionSettlementDistributed(s, lp, poolId, otoken, returned, ts).Success?
    ensures
      Tallied(HandleOptionSettlementDistributed(s, lp, poolId, otoken, returned, ts).value, q)
      == Tallied(s, q) + Contribution(OptionSettlementDistributed(lp, poolId, otoken, returned, ts), q)
  {
    var s' := HandleOptionSettlementDistributed(s, lp, poolId, otoken, returned, ts).value;
    assert s'.lpRecords == s.lpRecords[LPKey(lp, otoken) := RecordReturn(s.lpRecords[LPKey(lp, otoken)], returned)];
    assert s'.poolRecords == SettleReturn(s.poolRecords, PoolRecordKey(lp, poolId, otoken), returned);
  }

  /** Each handled event moves every total by exactly its contribution. */
  lemma TallyStep(s: Store, e: Event, q: Tally)
    requires Apply(s, e).Success?
    ensures Tallied(Apply(s, e).value, q) == Tallied(s, q) + Contribution(e, q)
  {
    match e
    case Deposited(lp, poolId, amount, ts) => TallyFramed(s, Apply(s, e).value, q);
    case Withdrawn(lp, poolId, amount, ts) => TallyFramed(s, Apply(s, e).value, q);
    case CurveSelected(lp, poolId, curve, ts) => TallyFramed(s, Apply(s, e).value, q);
    case CriteriaSetSelected(lp, poolId, criteriaSet, ts) => TallyFramed(s, Apply(s, e).value, q);
    case OptionsBought(buyer, otoken, units, premium, ts) =>
    case OptionsSold(lp, poolId, otoken, units, premium, collateral, ts) =>
      TallySale(s, lp, poolId, otoken, units, premium, collateral, ts, q);
    case OptionSettlementDistributed(lp, poolId, otoken, returned, ts) =>
      TallySettlement(s, lp, poolId, otoken, returned, ts, q);
  }

  /** Over a handled history every record total is its starting value plus the sum of
      the events' contributions; from the empty store, exactly that sum. */
  lemma {:induction false} TallyAccumulates(s: Store, events: seq<Event>, q: Tally)
    requires ApplyAll(s, events).Success?
    ensures Tallied(ApplyAll(s, events).value, q) == Tallied(s, q) + SumContributions(events, q)
    decreases |events|
  {
    if |events| > 0 {
      var s1 := Apply(s, events[0]).value;
      TallyStep(s, events[0], q);
      TallyAccumulates(s1, events[1..], q);
    }
  }

  /** The pool an event acts on, and the key its snapshot is written under. */
  function SnapshotKeyOfEvent(e: Event): Option<SnapshotKey> {
    if e.OptionsBought? then None else Some(SnapshotKey(e.lp, e.poolId, e.timestamp))
  }

  /** The action a pool event records on its snapshot. */
  function ActionOfEvent(e: Event): Action
    requires !e.OptionsBought?
  {
    match e
    case Deposited(_, _, _, _) => Deposit
    case Withdrawn(_, _, _, _) => Withdraw
    case CurveSelected(_, _, _, _) => CurveChange
    case CriteriaSetSelected(_, _, _, _) => CriteriaSetChange
    case OptionsSold(_, _, _, _, _, _, _) => PremiumReceived
    case OptionSettlementDistributed(_, _, _, _, _) => CapitalExercised
  }

  /** A handled pool event writes one snapshot under (lp, poolId, timestamp), replacing
      any earlier one there and leaving every other snapshot alone. The snapshot reads
      back as the pool exactly as the event left it, with the event's action; deposits,
      withdrawals and sales record their amount, a settlement distribution the collateral
      it lost, selections zero. A purchase
      writes no snapshot. */
  lemma SnapshotStep(s: Store, e: Event)
    requires PoolsKeyed(s.pools)
    requires Apply(s, e).Success?
    ensures var s' := Apply(s, e).value;
      match SnapshotKeyOfEvent(e)
      case None => s'.snapshots == s.snapshots
      case Some(sk) =>
        && s'.snapshots.Keys == s.snapshots.Keys + {sk}
        && (forall k :: k in s.snapshots && k != sk ==> s'.snapshots[k] == s.snapshots[k])
        && PoolOf(s'.snapshots[sk]) == s'.pools[PoolKey(e.lp, e.poolId)]
        && ActionOfCode(s'.snapshots[sk].actionType) == Some(ActionOfEvent(e))
        && s'.snapshots[sk].timestamp == e.timestamp
        && s'.snapshots[sk].currentPool == PoolKey(e.lp, e.poolId)
        && (e.Deposited? || e.Withdrawn? ==> s'.snapshots[sk].actionAmount == e.amount)
        && (e.OptionsSold? ==> s'.snapshots[sk].actionAmount == e.premium)
        && (e.OptionSettlementDistributed? ==>
              && PoolRecordKey(e.lp, e.poolId, e.otoken) in s.poolRecords
              && s'.snapshots[sk].actionAmount
                 == s.poolRecords[PoolRecordKey(e.lp, e.poolId, e.otoken)].collateral - e.collateralReturned)
        && (e.CurveSelected? || e.CriteriaSetSelected? ==> s'.snapshots[sk].actionAmount == 0.0)
  {
    if !e.OptionsBought? {
      var key := PoolKey(e.lp, e.poolId);
      assert KeyOfPool(LoadOrCreatePool(s.pools, key)) == key;
    }
  }

  /** The set of snapshot keys a history writes. */
  function SnapshotKeysOf(events: seq<Event>): set<SnapshotKey>
    decreases |events|
  {
    if |events| == 0 then {}
    else
      (match SnapshotKeyOfEvent(events[0]) case None => {} case Some(k) => {k})
      + SnapshotKeysOf(events[1..])
  }

  /** A handled history adds exactly one snapshot per distinct (lp, poolId, timestamp)
      among its pool events: events on one pool sharing a timestamp overwrite each other. */
  lemma {:induction false} SnapshotKeysAccumulate(s: Store, events: seq<Event>)
    requires Consistent(s)
    requires ApplyAll(s, events).Success?
    ensures ApplyAll(s, events).value.snapshots.Keys == s.snapshots.Keys + SnapshotKeysOf(events)
    decreases |events|
  {
    if |events| > 0 {
      var s1 := Apply(s, events[0]).value;
      SnapshotStep(s, events[0]);
      ApplyKeepsConsistent(s, events[0]);
      SnapshotKeysAccumulate(s1, events[1..]);
    }
  }

  /** Each purchase writes one order-book entry under (buyer, otoken, timestamp) holding
      its buyer, token, premium, units and timestamp; no other event touches the order
      book. */
  lemma OrderBookStep(s: Store, e: Event)
    requires Apply(s, e).Success?
    ensures var s' := Apply(s, e).value;
      if e.OptionsBought? then
        var ok := OrderKey(e.buyer, e.otoken, e.timestamp);
        && s'.orderBook.Keys == s.orderBook.Keys + {ok}
        && s'.orderBook[ok] == OrderBookEntry(e.buyer, e.otoken, e.premium, e.units, e.timestamp)
        && (forall k :: k in s.orderBook && k != ok ==> s'.orderBook[k] == s.orderBook[k])
      else s'.orderBook == s.orderBook
  {
  }
}

=== FILE: invariants.dfy ===
/** The cross-entity invariants the handlers maintain incrementally, and their proofs:
    unlocked = size - locked on every pool, and every template's size and pool count equal
    to the sum over the pools assigned to it. */
module Invariants {
  import opened Wrappers
  import opened Entities
  import opened Ledger
  import opened Templates
  import opened Snapshots
  import opened Handlers

  /** Every pool is stored under the key built from its own lp and pool id. */
  ghost predicate PoolsKeyed(pools: map<PoolKey, Pool>) {
    forall k :: k in pools ==> KeyOfPool(pools[k]) == k
  }

  /** The unlocked part of every pool is its size minus its locked part. */
  ghost predicate UnlockedSplit(pools: map<PoolKey, Pool>) {
    forall k :: k in pools ==> pools[k].unlocked == pools[k].size - pools[k].locked
  }

  /** Every template a pool refers to is stored. */
  ghost predicate MembersRegistered(pools: map<PoolKey, Pool>, templates: map<TemplateKey, Template>) {
    forall k :: k in pools && pools[k].template.Some? ==> pools[k].template.value in templates
  }

  ghost predicate TablesConsistent(pools: map<PoolKey, Pool>, templates: map<TemplateKey, Template>) {
    && PoolsKeyed(pools)
    && UnlockedSplit(pools)
    && MembersRegistered(pools, templates)
    && TemplatesKeyed(templates)
    && Aggregated(pools, templates)
  }

  /** The invariants hold of the store's pool and template tables. */
  ghost predicate Consistent(s: Store) {
    TablesConsistent(s.pools, s.templates)
  }

  lemma EmptyStoreConsistent()
    ensures Consistent(EmptyStore)
  {
  }

  /** One template's totals after a capital action on one pool: the pool's contribution
      moves by the same signed amount the template's size is moved by. */
  lemma CapitalAggregateAt(pools: map<PoolKey, Pool>, templates: map<TemplateKey, Template>,
                           key: PoolKey, q: Pool, amount: real, action: Action, t: TemplateKey)
    requires Aggregated(pools, templates)
    requires q.template == LoadOrCreatePool(pools, key).template
    requires q.size == LoadOrCreatePool(pools, key).size + SizeDelta(action, amount)
    requires UpdateCapitalTemplate(templates, q, amount, action).Success?
    requires t in templates
    ensures
      var nt := UpdateCapitalTemplate(templates, q, amount, action).value;
      && nt[t].size == Total(pools[key := q], t, SizeOf)
      && nt[t].numPools as real == Total(pools[key := q], t, CountOf)
  {
    var before := LoadOrCreatePool(pools, key);
    TotalAfterPut(pools, key, q, t, SizeOf);
    TotalAfterPut(pools, key, q, t, CountOf);
    assert (if key in pools then Weight(pools[key], t, SizeOf) else 0.0) == Weight(before, t, SizeOf);
    assert (if key in pools then Weight(pools[key], t, CountOf) else 0.0) == Weight(before, t, CountOf);
  }

  /** The template tables stay aggregated after a capital action on one pool. */
  lemma CapitalAggregates(pools: map<PoolKey, Pool>, templates: map<TemplateKey, Template>,
                          key: PoolKey, q: Pool, amount: real, action: Action)
    requires Aggregated(pools, templates)
    requires q.template == LoadOrCreatePool(pools, key).template
    requires q.size == LoadOrCreatePool(pools, key).size + SizeDelta(action, amount)
    requires UpdateCapitalTemplate(templates, q, amount, action).Success?
    ensures Aggregated(pools[key := q], UpdateCapitalTemplate(templates, q, amount, action).value)
  {
    var nt := UpdateCapitalTemplate(templates, q, amount, action).value;
    forall t | t in nt
      ensures nt[t].size == Total(pools[key := q], t, SizeOf)
      ensures nt[t].numPools as real == Total(pools[key := q], t, CountOf)
    {
      CapitalAggregateAt(pools, templates, key, q, amount, action, t);
    }
  }

  /** A capital action on one pool (the pool is stored, its size moves by the action's
      signed amount, its unlocked part is recomputed, its template is unchanged) followed
      by its snapshot and template update keeps the store consistent. */
  lemma CapitalStepKeepsConsistent(s: Store, key: PoolKey, q: Pool, ts: Timestamp, amount: real, action: Action)
    requires Consistent(s)
    requires KeyOfPool(q) == key
    requires q.template == LoadOrCreatePool(s.pools, key).template
    requires q.size == LoadOrCreatePool(s.pools, key).size + SizeDelta(action, amount)
    requires q.unlocked == q.size - q.locked
    requires CreatePoolSnapshot(s.(pools := s.pools[key := q]), q, ts, amount, action).Success?
    ensures Consistent(CreatePoolSnapshot(s.(pools := s.pools[key := q]), q, ts, amount, action).value)
  {
    var s2 := CreatePoolSnapshot(s.(pools := s.pools[key := q]), q, ts, amount, action).value;
    var nt := UpdateCapitalTemplate(s.templates, q, amount, action).value;
    assert s2.pools == s.pools[key := q] && s2.templates == nt;
    CapitalAggregates(s.pools, s.templates, key, q, amount, action);
    assert nt.Keys == s.templates.Keys;
    assert TemplatesKeyed(nt);
  }

  /** One template's totals after a pool moves from its past template to `nk`. */
  lemma ConfigAggregateAt(pools: map<PoolKey, Pool>, templates: map<TemplateKey, Template>, key: PoolKey,
                          pool: Pool, past: Option<Template>, curve: Option<Hash>, criteriaSet: Option<Hash>,
                          t: TemplateKey)
    requires Aggregated(pools, templates) && MembersRegistered(pools, templates) && TemplatesKeyed(templates)
    requires pool == LoadOrCreatePool(pools, key)
    requires pool.template.None? ==> past.None?
    requires pool.template.Some? ==> pool.template.value in templates && past == Some(templates[pool.template.value])
    requires !SamePair(past, curve, criteriaSet)
    requires t in UpdateConfigPoolTemplate(templates, pool, past, curve, criteriaSet).0
    ensures
      var (nt, pool') := UpdateConfigPoolTemplate(templates, pool, past, curve, criteriaSet);
      && nt[t].size == Total(pools[key := pool'], t, SizeOf)
      && nt[t].numPools as real == Total(pools[key := pool'], t, CountOf)
  {
    var (nt, pool') := UpdateConfigPoolTemplate(templates, pool, past, curve, criteriaSet);
    var nk := TemplateKey(curve, criteriaSet);
    assert past.Some? ==> KeyOfTemplate(past.value) != nk;
    TotalAfterPut(pools, key, pool', t, SizeOf);
    TotalAfterPut(pools, key, pool', t, CountOf);
    assert (if key in pools then Weight(pools[key], t, SizeOf) else 0.0) == Weight(pool, t, SizeOf);
    assert (if key in pools then Weight(pools[key], t, CountOf) else 0.0) == Weight(pool, t, CountOf);
    if t == nk && nk !in templates {
      TotalNoMembers(pools, nk, SizeOf);
      TotalNoMembers(pools, nk, CountOf);
    }
  }

  /** Moving a pool between templates keeps the pool and template tables consistent and
      leaves the pool in a stored template. */
  lemma ConfigTablesConsistent(pools: map<PoolKey, Pool>, templates: map<TemplateKey, Template>, key: PoolKey,
                               pool: Pool, past: Option<Template>, curve: Option<Hash>, criteriaSet: Option<Hash>)
    requires TablesConsistent(pools, templates)
    requires pool == LoadOrCreatePool(pools, key)
    requires pool.template.None? ==> past.None?
    requires pool.template.Some? ==> pool.template.value in templates && past == Some(templates[pool.template.value])
    ensures
      var (nt, pool') := UpdateConfigPoolTemplate(templates, pool, past, curve, criteriaSet);
      && TablesConsistent(pools[key := pool'], nt)
      && pool'.template.Some? && pool'.template.value in nt
  {
    var (nt, pool') := UpdateConfigPoolTemplate(templates, pool, past, curve, criteriaSet);
    assert KeyOfPool(pool) == key;
    if SamePair(past, curve, criteriaSet) {
      assert key in pools;
      assert pools[key := pool'] == pools;
    } else {
      var nk := TemplateKey(curve, criteriaSet);
      assert pool'.template == Some(nk);
      assert past.Some? ==> KeyOfTemplate(past.value) != nk;
      forall t | t in nt
        ensures nt[t].size == Total(pools[key := pool'], t, SizeOf)
        ensures nt[t].numPools as real == Total(pools[key := pool'], t, CountOf)
      {
        ConfigAggregateAt(pools, templates, key, pool, past, curve, criteriaSet, t);
      }
      assert MembersRegistered(pools[key := pool'], nt);
      assert TemplatesKeyed(nt);
    }
  }

  /** A curve or criteria-set selection on a consistent store never aborts once the
      pool's template has been loaded, and keeps the store consistent. */
  lemma ConfigStepKeepsConsistent(s: Store, key: PoolKey, pool: Pool, curve: Option<Hash>, criteriaSet: Option<Hash>,
                                  ts: Timestamp, action: Action)
    requires Consistent(s)
    requires pool == LoadOrCreatePool(s.pools, key)
    requires LoadPastTemplate(s.templates, pool).Success?
    requires IsConfig(action)
    ensures
      var past := LoadPastTemplate(s.templates, pool).value;
      var (templates, pool') := UpdateConfigPoolTemplate(s.templates, pool, past, curve, criteriaSet);
      var r := CreatePoolSnapshot(s.(pools := s.pools[key := pool'], templates := templates), pool', ts, 0.0, action);
      r.Success? && Consistent(r.value)
  {
    var past := LoadPastTemplate(s.templates, pool).value;
    ConfigTablesConsistent(s.pools, s.templates, key, pool, past, curve, criteriaSet);
  }

  lemma DepositKeepsConsistent(s: Store, lp: Address, poolId: nat, amount: real, ts: Timestamp)
    requires Consistent(s)
    requires HandleDeposited(s, lp, poolId, amount, ts).Success?
    ensures Consistent(HandleDeposited(s, lp, poolId, amount, ts).value)
  {
    var key := PoolKey(lp, poolId);
    var q := ApplyDeposit(LoadOrCreatePool(s.pools, key), amount).value;
    CapitalStepKeepsConsistent(s, key, q, ts, amount, Deposit);
  }

  lemma WithdrawKeepsConsistent(s: Store, lp: Address, poolId: nat, amount: real, ts: Timestamp)
    requires Consistent(s)
    requires HandleWithdrawn(s, lp, poolId, amount, ts).Success?
    ensures Consistent(HandleWithdrawn(s, lp, poolId, amount, ts).value)
  {
    var key := PoolKey(lp, poolId);
    var q := ApplyWithdraw(LoadOrCreatePool(s.pools, key), amount).value;
    CapitalStepKeepsConsistent(s, key, q, ts, amount, Withdraw);
  }

  lemma CurveKeepsConsistent(s: Store, lp: Address, poolId: nat, curve: Hash, ts: Timestamp)
    requires Consistent(s)
    ensures HandleCurveSelected(s, lp, poolId, curve, ts).Success?
    ensures Consistent(HandleCurveSelected(s, lp, poolId, curve, ts).value)
  {
    var key := PoolKey(lp, poolId);
    var pool := LoadOrCreatePool(s.pools, key);
    var past := LoadPastTemplate(s.templates, pool).value;
    var criteriaSet := if past.Some? then past.value.criteriaSet else None;
    ConfigStepKeepsConsistent(s, key, pool, Some(curve), criteriaSet, ts, CurveChange);
  }

  lemma CriteriaSetKeepsConsistent(s: Store, lp: Address, poolId: nat, criteriaSet: Hash, ts: Timestamp)
    requires Consistent(s)
    ensures HandleCriteriaSetSelected(s, lp, poolId, criteriaSet, ts).Success? <==> PoolKey(lp, poolId) in s.pools
    ensures HandleCriteriaSetSelected(s, lp, poolId, criteriaSet, ts).Success? ==>
      Consistent(HandleCriteriaSetSelected(s, lp, poolId, criteriaSet, ts).value)
  {
    var key := PoolKey(lp, poolId);
    if key in s.pools {
      var pool := s.pools[key];
      var past := LoadPastTemplate(s.templates, pool).value;
      var curve := if past.Some? then past.value.curve else None;
      ConfigStepKeepsConsistent(s, key, pool, curve, Some(criteriaSet), ts, CriteriaSetChange);
    }
  }

  /** On a consistent store a curve selection puts the pool in the template of the new
      curve and the criteria set the pool already had (none when it had no template).
      A pool that changes template restarts its template P&L at zero and keeps every
      other field; a pool that reselects its own pair is left as it was. */
  lemma CurveSelectionJoins(s: Store, lp: Address, poolId: nat, curve: Hash, ts: Timestamp)
    requires Consistent(s)
    ensures
      var key := PoolKey(lp, poolId);
      var r := HandleCurveSelected(s, lp, poolId, curve, ts);
      var before := LoadOrCreatePool(s.pools, key);
      var joined := TemplateKey(Some(curve), if before.template.Some? then before.template.value.criteriaSet else None);
      && r.Success?
      && r.value.pools[key].template == Some(joined)
      && (before.template != Some(joined) ==> r.value.pools[key] == before.(template := Some(joined), pnlTemplate := 0.0))
      && (before.template == Some(joined) ==> r.value.pools[key] == before)
  {
    CurveKeepsConsistent(s, lp, poolId, curve, ts);
    var before := LoadOrCreatePool(s.pools, PoolKey(lp, poolId));
    if before.template.Some? {
      assert before.template.value in s.templates;
      assert KeyOfTemplate(s.templates[before.template.value]) == before.template.value;
    }
  }

  /** On a consistent store a criteria-set selection on an existing pool puts it in the
      template of the curve it already had (none when it had no template) and the new
      criteria set, with the same P&L reset as a curve selection. */
  lemma CriteriaSetSelectionJoins(s: Store, lp: Address, poolId: nat, criteriaSet: Hash, ts: Timestamp)
    requires Consistent(s)
    requires PoolKey(lp, poolId) in s.pools
    ensures
      var key := PoolKey(lp, poolId);
      var r := HandleCriteriaSetSelected(s, lp, poolId, criteriaSet, ts);
      var before := s.pools[key];
      var joined := TemplateKey(if before.template.Some? then before.template.value.curve else None, Some(criteriaSet));
      && r.Success?
      && r.value.pools[key].template == Some(joined)
      && (before.template != Some(joined) ==> r.value.pools[key] == before.(template := Some(joined), pnlTemplate := 0.0))
      && (before.template == Some(joined) ==> r.value.pools[key] == before)
  {
    CriteriaSetKeepsConsistent(s, lp, poolId, criteriaSet, ts);
    var before := s.pools[PoolKey(lp, poolId)];
    if before.template.Some? {
      assert before.template.value in s.templates;
      assert KeyOfTemplate(s.templates[before.template.value]) == before.template.value;
    }
  }

  lemma SaleKeepsConsistent(s: Store, lp: Address, poolId: nat, otoken: Address, units: real,
                            premium: real, collateral: real, ts: Timestamp)
    requires Consistent(s)
    requires HandleOptionsSold(s, lp, poolId, otoken, units, premium, collateral, ts).Success?
    ensures Consistent(HandleOptionsSold(s, lp, poolId, otoken, units, premium, collateral, ts).value)
  {
    var key := PoolKey(lp, poolId);
    var q := ApplySale(s.pools[key], premium, collateral).value;
    CapitalStepKeepsConsistent(s, key, q, ts, premium, PremiumReceived);
  }

  lemma SettlementKeepsConsistent(s: Store, lp: Address, poolId: nat, otoken: Address, returned: real, ts: Timestamp)
    requires Consistent(s)
    requires HandleOptionSettlementDistributed(s, lp, poolId, otoken, returned, ts).Success?
    ensures Consistent(HandleOptionSettlementDistributed(s, lp, poolId, otoken, returned, ts).value)
  {
    var lpKey := LPKey(lp, otoken);
    var prKey := PoolRecordKey(lp, poolId, otoken);
    var s0 := s.(lpRecords := s.lpRecords[lpKey := Records.RecordReturn(s.lpRecords[lpKey], returned)],
                 poolRecords := Records.SettleReturn(s.poolRecords, prKey, returned));
    var key := PoolKey(lp, poolId);
    var poolCollateral := s.poolRecords[prKey].collateral;
    var q := ApplySettlement(s.pools[key], poolCollateral, returned).value;
    CapitalStepKeepsConsistent(s0, key, q, ts, poolCollateral - returned, CapitalExercised);
  }

  /** On a consistent store the template of any pool the handlers load resolves. */
  lemma TemplateOfPoolResolves(s: Store, key: PoolKey)
    requires Consistent(s)
    ensures TemplateResolves(s.templates, LoadOrCreatePool(s.pools, key))
  {
    if key in s.pools {
      assert s.pools[key].template.Some? ==> s.pools[key].template.value in s.templates;
    }
  }

  /** On a consistent store a deposit is refused only when the P&L percentage would
      divide by a zero initial balance. */
  lemma DepositSucceeds(s: Store, lp: Address, poolId: nat, amount: real, ts: Timestamp)
    requires Consistent(s)
    ensures HandleDeposited(s, lp, poolId, amount, ts).Success?
        <==> DepositAccepted(LoadOrCreatePool(s.pools, PoolKey(lp, poolId)), amount)
  {
    TemplateOfPoolResolves(s, PoolKey(lp, poolId));
  }

  /** On a consistent store a withdrawal is refused only when the pool has no non-zero
      initial balance. */
  lemma WithdrawSucceeds(s: Store, lp: Address, poolId: nat, amount: real, ts: Timestamp)
    requires Consistent(s)
    ensures HandleWithdrawn(s, lp, poolId, amount, ts).Success?
        <==> ApplyWithdraw(LoadOrCreatePool(s.pools, PoolKey(lp, poolId)), amount).Success?
  {
    TemplateOfPoolResolves(s, PoolKey(lp, poolId));
  }

  /** On a consistent store a sale is refused only when the pool is missing or the pool
      arithmetic divides by zero. */
  lemma SaleSucceeds(s: Store, lp: Address, poolId: nat, otoken: Address, units: real,
                     premium: real, collateral: real, ts: Timestamp)
    requires Consistent(s)
    ensures HandleOptionsSold(s, lp, poolId, otoken, units, premium, collateral, ts).Success?
        <==> PoolKey(lp, poolId) in s.pools && ApplySale(s.pools[PoolKey(lp, poolId)], premium, collateral).Success?
  {
    TemplateOfPoolResolves(s, PoolKey(lp, poolId));
  }

  /** On a consistent store a settlement distribution is refused only when the provider's
      record, the pool's record or the pool is missing, or the pool arithmetic divides by
      zero. */
  lemma SettlementSucceeds(s: Store, lp: Address, poolId: nat, otoken: Address, returned: real, ts: Timestamp)
    requires Consistent(s)
    ensures HandleOptionSettlementDistributed(s, lp, poolId, otoken, returned, ts).Success?
        <==> && LPKey(lp, otoken) in s.lpRecords
             && PoolRecordKey(lp, poolId, otoken) in s.poolRecords
             && PoolKey(lp, poolId) in s.pools
             && ApplySettlement(s.pools[PoolKey(lp, poolId)],
                                s.poolRecords[PoolRecordKey(lp, poolId, otoken)].collateral, returned).Success?
  {
    TemplateOfPoolResolves(s, PoolKey(lp, poolId));
  }

  /** Every event that is handled keeps a consistent store consistent. */
  lemma ApplyKeepsConsistent(s: Store, e: Event)
    requires Consistent(s)
    requires Apply(s, e).Success?
    ensures Consistent(Apply(s, e).value)
  {
    match e
    case Deposited(lp, poolId, amount, ts) => DepositKeepsConsistent(s, lp, poolId, amount, ts);
    case Withdrawn(lp, poolId, amount, ts) => WithdrawKeepsConsistent(s, lp, poolId, amount, ts);
    case CurveSelected(lp, poolId, curve, ts) => CurveKeepsConsistent(s, lp, poolId, curve, ts);
    case CriteriaSetSelected(lp, poolId, criteriaSet, ts) => CriteriaSetKeepsConsistent(s, lp, poolId, criteriaSet, ts);
    case OptionsBought(buyer, otoken, units, premium, ts) =>
    case OptionsSold(lp, poolId, otoken, units, premium, collateral, ts) =>
      SaleKeepsConsistent(s, lp, poolId, otoken, units, premium, collateral, ts);
    case OptionSettlementDistributed(lp, poolId, otoken, returned, ts) =>
      SettlementKeepsConsistent(s, lp, poolId, otoken, returned, ts);
  }

  /** A stream of events that is handled to the end keeps a consistent store consistent. */
  lemma {:induction false} ApplyAllKeepsConsistent(s: Store, events: seq<Event>)
    requires Consistent(s)
    requires ApplyAll(s, events).Success?
    ensures Consistent(ApplyAll(s, events).value)
    decreases |events|
  {
    if |events| > 0 {
      ApplyKeepsConsistent(s, events[0]);
      ApplyAllKeepsConsistent(Apply(s, events[0]).value, events[1..]);
    }
  }

  /** From the empty store, every handled history leaves each pool with
      unlocked = size - locked and each template holding the total size and the number
      of the pools assigned to it. */
  lemma HistoryConsistent(events: seq<Event>)
    requires ApplyAll(EmptyStore, events).Success?
    ensures var s := ApplyAll(EmptyStore, events).value;
      && UnlockedSplit(s.pools)
      && MembersRegistered(s.pools, s.templates)
      && Aggregated(s.pools, s.templates)
  {
    EmptyStoreConsistent();
    ApplyAllKeepsConsistent(EmptyStore, events);
  }
}

=== FILE: ledger.dfy ===
/** The pool ledger: P&L and net-deposit bookkeeping and the per-pool effect of each
    capital event (deposit, withdrawal, option sale, settlement distribution). */
module Ledger {
  import opened Wrappers
  import opened Entities

  /** Only premium receipts and exercised capital are profit or loss. */
  predicate MovesPnl(a: Action) {
    a == PremiumReceived || a == CapitalExercised
  }

  /** Only deposits and withdrawals are contributions of capital. */
  predicate MovesNetDeposits(a: Action) {
    a == Deposit || a == Withdraw
  }

  /** The P&L after an action: premium adds, exercised capital subtracts, any other
      action leaves it as it was. */
  function CalculatePNL(current: real, amount: real, action: Action): (r: real)
    ensures !MovesPnl(action) ==> r == current
    ensures action == PremiumReceived ==> r - current == amount
    ensures action == CapitalExercised ==> current - r == amount
  {
    match action
    case PremiumReceived => current + amount
    case CapitalExercised => current - amount
    case _ => current
  }

  /** Net deposits after an action: deposits add, withdrawals subtract, any other
      action leaves them as they were. */
  function CalculateNetDeposits(netDeposits: real, amount: real, action: Action): (r: real)
    ensures !MovesNetDeposits(action) ==> r == netDeposits
    ensures action == Deposit ==> r - netDeposits == amount
    ensures action == Withdraw ==> netDeposits - r == amount
  {
    match action
    case Deposit => netDeposits + amount
    case Withdraw => netDeposits - amount
    case _ => netDeposits
  }

  /** The signed change a capital action makes to the size of a pool and of its template. */
  function SizeDelta(action: Action, amount: real): real {
    match action
    case Deposit => amount
    case Withdraw => -amount
    case PremiumReceived => amount
    case CapitalExercised => -amount
    case _ => 0.0
  }

  /** Share of the pool's capital that is locked; the division has no zero guard, so an
      empty pool aborts the event. */
  function Utilization(locked: real, size: real): (r: Result<real, Fault>)
    ensures r.Success? <==> size != 0.0
    ensures r.Failure? ==> r.error == ZeroPoolSize
    ensures r.Success? ==> r.value * size == locked
  {
    if size == 0.0 then Failure(ZeroPoolSize) else Success(locked / size)
  }

  /** The pool's return relative to its initial balance, in percent:
      (size - netDeposits) / initialBalance - 1, times 100. */
  function PnlPercentage(size: real, netDeposits: real, initialBalance: Option<real>): (r: Result<real, Fault>)
    ensures r.Success? <==> initialBalance.Some? && initialBalance.value != 0.0
    ensures initialBalance.None? ==> r == Failure(InitialBalanceUnset)
    ensures initialBalance == Some(0.0) ==> r == Failure(ZeroInitialBalance)
    ensures r.Success? ==> (r.value / 100.0 + 1.0) * initialBalance.value == size - netDeposits
  {
    match initialBalance
    case None => Failure(InitialBalanceUnset)
    case Some(b) =>
      if b == 0.0 then Failure(ZeroInitialBalance)
      else Success(((size - netDeposits) / b - 1.0) * 100.0)
  }

  /** The percentage field agrees with the pool's size, net deposits and initial balance. */
  ghost predicate PercentageCurrent(p: Pool) {
    && p.initialBalance.Some?
    && p.initialBalance.value != 0.0
    && (p.pnlPercentage / 100.0 + 1.0) * p.initialBalance.value == p.size - p.netDeposits
  }

  /** Balances and configuration are equal; P&L fields may differ. */
  ghost predicate SameButPnl(p: Pool, q: Pool) {
    q.(pnlTotal := p.pnlTotal, pnlTemplate := p.pnlTemplate, pnlPercentage := p.pnlPercentage) == p
  }

  /** Applies an action's P&L to both P&L accumulators and recomputes the percentage. */
  function SetAndCalculatePNL(amount: real, action: Action, pool: Pool): (r: Result<Pool, Fault>)
    ensures r.Success? <==> pool.initialBalance.Some? && pool.initialBalance.value != 0.0
    ensures r.Failure? ==> r.error == (if pool.initialBalance.None? then InitialBalanceUnset else ZeroInitialBalance)
    ensures r.Success? ==> SameButPnl(pool, r.value) && PercentageCurrent(r.value)
    ensures r.Success? ==> r.value.pnlTotal - pool.pnlTotal == r.value.pnlTemplate - pool.pnlTemplate
    ensures r.Success? && !MovesPnl(action) ==> r.value.pnlTotal == pool.pnlTotal && r.value.pnlTemplate == pool.pnlTemplate
    ensures r.Success? && MovesPnl(action) ==> r.value.pnlTotal - pool.pnlTotal == SizeDelta(action, amount)
  {
    var pct :- PnlPercentage(pool.size, pool.netDeposits, pool.initialBalance);
    Success(pool.(
      pnlTotal := CalculatePNL(pool.pnlTotal, amount, action),
      pnlTemplate := CalculatePNL(pool.pnlTemplate, amount, action),
      pnlPercentage := pct))
  }

  /** Can a deposit of `amount` into `pool` be booked? The first deposit's post-deposit
      size becomes the divisor of the P&L percentage. */
  predicate DepositAccepted(pool: Pool, amount: real) {
    match pool.initialBalance
    case None => pool.size + amount != 0.0
    case Some(b) => b != 0.0
  }

  /** handleDeposited, pool part: grows size and unlocked; the first deposit fixes the
      initial balance instead of counting as a net deposit. */
  function ApplyDeposit(pool: Pool, amount: real): (r: Result<Pool, Fault>)
    ensures r.Success? <==> DepositAccepted(pool, amount)
    ensures r.Failure? ==> r.error == ZeroInitialBalance
    ensures r.Success? ==>
      var q := r.value;
      && q.size == pool.size + amount
      && q.unlocked == pool.unlocked + amount
      && q.locked == pool.locked && q.utilization == pool.utilization
      && (pool.initialBalance.None? ==> q.initialBalance == Some(q.size) && q.netDeposits == pool.netDeposits)
      && (pool.initialBalance.Some? ==> q.initialBalance == pool.initialBalance && q.netDeposits == pool.netDeposits + amount)
      && q.pnlTotal == pool.pnlTotal && q.pnlTemplate == pool.pnlTemplate
      && PercentageCurrent(q)
      && KeyOfPool(q) == KeyOfPool(pool) && q.template == pool.template
  {
    var grown := pool.(size := pool.size + amount, unlocked := pool.unlocked + amount);
    var booked :=
      if grown.initialBalance.None? then grown.(initialBalance := Some(grown.size))
      else grown.(netDeposits := CalculateNetDeposits(grown.netDeposits, amount, Deposit));
    SetAndCalculatePNL(amount, Deposit, booked)
  }

  /** handleWithdrawn, pool part: shrinks size, unlocked and net deposits. A pool that
      never received a deposit has no initial balance and rejects the event. */
  function ApplyWithdraw(pool: Pool, amount: real): (r: Result<Pool, Fault>)
    ensures r.Success? <==> pool.initialBalance.Some? && pool.initialBalance.value != 0.0
    ensures r.Failure? && pool.initialBalance.None? ==> r.error == InitialBalanceUnset
    ensures pool.initialBalance == Some(0.0) ==> r == Failure(ZeroInitialBalance)
    ensures r.Success? ==>
      var q := r.value;
      && q.size == pool.size - amount
      && q.unlocked == pool.unlocked - amount
      && q.netDeposits == pool.netDeposits - amount
      && q.locked == pool.locked && q.utilization == pool.utilization
      && q.initialBalance == pool.initialBalance
      && q.pnlTotal == pool.pnlTotal && q.pnlTemplate == pool.pnlTemplate
      && PercentageCurrent(q)
      && KeyOfPool(q) == KeyOfPool(pool) && q.template == pool.template
  {
    var shrunk := pool.(
      size := pool.size - amount,
      unlocked := pool.unlocked - amount,
      netDeposits := CalculateNetDeposits(pool.netDeposits, amount, Withdraw));
    SetAndCalculatePNL(amount, Withdraw, shrunk)
  }

  /** handleOptionsSold, pool part: locks the collateral, adds the premium to size and to
      both P&L accumulators, and recomputes unlocked and utilization. */
  function ApplySale(pool: Pool, premium: real, collateral: real): (r: Result<Pool, Fault>)
    ensures pool.size + premium == 0.0 ==> r == Failure(ZeroPoolSize)
    ensures r.Success? <==>
      pool.size + premium != 0.0 && pool.initialBalance.Some? && pool.initialBalance.value != 0.0
    ensures pool.size + premium != 0.0 && r.Failure? ==>
      r.error == (if pool.initialBalance.None? then InitialBalanceUnset else ZeroInitialBalance)
    ensures r.Success? ==>
      var q := r.value;
      && q.locked == pool.locked + collateral
      && q.size == pool.size + premium
      && q.unlocked == q.size - q.locked
      && q.utilization * q.size == q.locked
      && q.pnlTotal == pool.pnlTotal + premium
      && q.pnlTemplate == pool.pnlTemplate + premium
      && q.netDeposits == pool.netDeposits && q.initialBalance == pool.initialBalance
      && PercentageCurrent(q)
      && KeyOfPool(q) == KeyOfPool(pool) && q.template == pool.template
  {
    var grown := pool.(locked := collateral + pool.locked, size := premium + pool.size);
    var split := grown.(unlocked := grown.size - grown.locked);
    var u :- Utilization(split.locked, split.size);
    SetAndCalculatePNL(premium, PremiumReceived, split.(utilization := u))
  }

  /** handleOptionSettlementDistributed, pool part: all of the pool's collateral for the
      option is released from `locked`; what was not returned is lost from size and P&L. */
  function ApplySettlement(pool: Pool, poolCollateral: real, returned: real): (r: Result<Pool, Fault>)
    ensures pool.size - (poolCollateral - returned) == 0.0 ==> r == Failure(ZeroPoolSize)
    ensures r.Success? <==>
      && pool.size - (poolCollateral - returned) != 0.0
      && pool.initialBalance.Some? && pool.initialBalance.value != 0.0
    ensures pool.size - (poolCollateral - returned) != 0.0 && r.Failure? ==>
      r.error == (if pool.initialBalance.None? then InitialBalanceUnset else ZeroInitialBalance)
    ensures r.Success? ==>
      var q := r.value;
      var lost := poolCollateral - returned;
      && q.size == pool.size - lost
      && q.locked == pool.locked - poolCollateral
      && q.unlocked == q.size - q.locked
      && q.utilization * q.size == q.locked
      && q.pnlTotal == pool.pnlTotal - lost
      && q.pnlTemplate == pool.pnlTemplate - lost
      && q.netDeposits == pool.netDeposits && q.initialBalance == pool.initialBalance
      && PercentageCurrent(q)
      && KeyOfPool(q) == KeyOfPool(pool) && q.template == pool.template
  {
    var lost := poolCollateral - returned;
    var shrunk := pool.(size := pool.size - lost, locked := pool.locked - poolCollateral);
    var split := shrunk.(unlocked := shrunk.size - shrunk.locked);
    var u :- Utilization(split.locked, split.size);
    SetAndCalculatePNL(lost, CapitalExercised, split.(utilization := u))
  }

  /** Deposit and withdrawal never touch P&L totals; sale and settlement never touch net
      deposits; configuration actions touch neither. */
  lemma ActionKindsSeparate(x: real, amount: real, action: Action)
    ensures CalculatePNL(x, amount, action) == x || CalculateNetDeposits(x, amount, action) == x
    ensures MovesNetDeposits(action) ==> CalculatePNL(x, amount, action) == x
    ensures MovesPnl(action) ==> CalculateNetDeposits(x, amount, action) == x
    ensures IsConfig(action) ==>
      CalculatePNL(x, amount, action) == x && CalculateNetDeposits(x, amount, action) == x && SizeDelta(action, amount) == 0.0
  {
  }

  /** A withdrawal of `amount` undoes a deposit of `amount` in size and unlocked. On a
      pool that already had its first deposit net deposits are restored too; on a fresh
      pool the first deposit is not counted but the withdrawal is, leaving -amount. */
  lemma DepositThenWithdraw(pool: Pool, amount: real)
    requires DepositAccepted(pool, amount)
    ensures ApplyDeposit(pool, amount).Success?
    ensures ApplyWithdraw(ApplyDeposit(pool, amount).value, amount).Success?
    ensures
      var q := ApplyWithdraw(ApplyDeposit(pool, amount).value, amount).value;
      && q.size == pool.size && q.unlocked == pool.unlocked && q.locked == pool.locked
      && q.pnlTotal == pool.pnlTotal && q.pnlTemplate == pool.pnlTemplate
      && (pool.initialBalance.Some? ==> q.netDeposits == pool.netDeposits)
      && (pool.initialBalance.None? ==> q.netDeposits == pool.netDeposits - amount)
  {
    var d := ApplyDeposit(pool, amount);
    assert d.value.initialBalance.Some? && d.value.initialBalance.value != 0.0;
  }

  /** The first deposit into a fresh pool sets the initial balance to the deposit and a
      zero P&L percentage; nothing is counted as a net deposit. */
  lemma FirstDeposit(lp: Address, poolId: nat, amount: real)
    requires amount != 0.0
    ensures ApplyDeposit(CreatePool(lp, poolId), amount).Success?
    ensures
      var q := ApplyDeposit(CreatePool(lp, poolId), amount).value;
      && q.size == amount && q.unlocked == amount && q.initialBalance == Some(amount)
      && q.netDeposits == 0.0 && q.pnlPercentage == 0.0
  {
    var q := ApplyDeposit(CreatePool(lp, poolId), amount).value;
    assert (q.pnlPercentage / 100.0 + 1.0) * amount == amount;
  }
}

=== FILE: records.dfy ===
/** The record book: lifetime totals per buyer, per liquidity provider and per pool for
    each option token, and the order book of purchases. */
module Records {
  import opened Wrappers
  import opened Entities

  /** The buyer's record for the token, or a zeroed one when there is none. */
  function LoadOrCreateBuyerRecord(records: map<BuyerKey, BuyerRecord>, key: BuyerKey): BuyerRecord {
    if key in records then records[key] else BuyerRecord(key.buyer, key.otoken, 0.0, 0.0)
  }

  /** The provider's record for the token, or a zeroed one when there is none. */
  function LoadOrCreateLPRecord(records: map<LPKey, LPRecord>, key: LPKey): LPRecord {
    if key in records then records[key] else LPRecord(key.lp, key.otoken, 0.0, 0.0, 0.0)
  }

  /** The pool's record for the token, or a zeroed one (with `returned` unset). */
  function ZeroPoolRecord(key: PoolRecordKey): PoolRecord {
    PoolRecord(PoolKey(key.lp, key.poolId), LPKey(key.lp, key.otoken), key.otoken, 0.0, 0.0, 0.0, None)
  }

  function LoadOrZeroPoolRecord(records: map<PoolRecordKey, PoolRecord>, key: PoolRecordKey): PoolRecord {
    if key in records then records[key] else ZeroPoolRecord(key)
  }

  /** handleOptionsBought, buyer part: the buyer's totals for the token grow by exactly
      the purchase, the record's other fields are kept (or set from the key when the
      record is new), and every other buyer record is untouched. */
  function RecordPurchase(records: map<BuyerKey, BuyerRecord>, buyer: Address, otoken: Address, units: real, premium: real)
    : (r: map<BuyerKey, BuyerRecord>)
    ensures r.Keys == records.Keys + {BuyerKey(buyer, otoken)}
    ensures
      var before := LoadOrCreateBuyerRecord(records, BuyerKey(buyer, otoken));
      var after := r[BuyerKey(buyer, otoken)];
      && after.premium == before.premium + premium
      && after.numberOfOTokens == before.numberOfOTokens + units
      && after.(premium := before.premium, numberOfOTokens := before.numberOfOTokens) == before
    ensures forall k :: k in records && k != BuyerKey(buyer, otoken) ==> r[k] == records[k]
  {
    var key := BuyerKey(buyer, otoken);
    var record := LoadOrCreateBuyerRecord(records, key);
    records[key := record.(premium := premium + record.premium, numberOfOTokens := units + record.numberOfOTokens)]
  }

  /** createOrderBookEntry: one entry per (buyer, token, timestamp), replacing an earlier
      entry with the same key. */
  function CreateOrderBookEntry(book: map<OrderKey, OrderBookEntry>, buyer: Address, otoken: Address,
                                premium: real, units: real, timestamp: Timestamp)
    : (r: map<OrderKey, OrderBookEntry>)
    ensures r.Keys == book.Keys + {OrderKey(buyer, otoken, timestamp)}
    ensures forall k :: k in book && k != OrderKey(buyer, otoken, timestamp) ==> r[k] == book[k]
    ensures
      var e := r[OrderKey(buyer, otoken, timestamp)];
      OrderKey(e.buyer, e.otoken, e.timestamp) == OrderKey(buyer, otoken, timestamp)
      && e.premium == premium && e.numberOfOTokens == units
  {
    book[OrderKey(buyer, otoken, timestamp) := OrderBookEntry(buyer, otoken, premium, units, timestamp)]
  }

  /** handleOptionsSold, record part: the provider's record for the token and the pool's
      record for the token both grow by exactly the units, premium and collateral sold. */
  function RecordSale(lpRecords: map<LPKey, LPRecord>, poolRecords: map<PoolRecordKey, PoolRecord>,
                      lp: Address, poolId: nat, otoken: Address, units: real, premium: real, collateral: real)
    : (r: (map<LPKey, LPRecord>, map<PoolRecordKey, PoolRecord>))
    ensures r.0.Keys == lpRecords.Keys + {LPKey(lp, otoken)}
    ensures r.1.Keys == poolRecords.Keys + {PoolRecordKey(lp, poolId, otoken)}
    ensures
      var before := LoadOrCreateLPRecord(lpRecords, LPKey(lp, otoken));
      var after := r.0[LPKey(lp, otoken)];
      && after.premiumReceived == before.premiumReceived + premium
      && after.liquidityCollateralized == before.liquidityCollateralized + collateral
      && after.numberOfOTokens == before.numberOfOTokens + units
      && after.(premiumReceived := before.premiumReceived, liquidityCollateralized := before.liquidityCollateralized,
                numberOfOTokens := before.numberOfOTokens) == before
    ensures
      var before := LoadOrZeroPoolRecord(poolRecords, PoolRecordKey(lp, poolId, otoken));
      var after := r.1[PoolRecordKey(lp, poolId, otoken)];
      && after.collateral == before.collateral + collateral
      && after.premiumReceived == before.premiumReceived + premium
      && after.numberOfOTokens == before.numberOfOTokens + units
      && after.returned == before.returned
      && after.(collateral := before.collateral, premiumReceived := before.premiumReceived,
                numberOfOTokens := before.numberOfOTokens) == before
    ensures forall k :: k in lpRecords && k != LPKey(lp, otoken) ==> r.0[k] == lpRecords[k]
    ensures forall k :: k in poolRecords && k != PoolRecordKey(lp, poolId, otoken) ==> r.1[k] == poolRecords[k]
  {
    var lpKey := LPKey(lp, otoken);
    var record := LoadOrCreateLPRecord(lpRecords, lpKey);
    var record' := record.(
      premiumReceived := record.premiumReceived + premium,
      liquidityCollateralized := record.liquidityCollateralized + collateral,
      numberOfOTokens := record.numberOfOTokens + units);
    var prKey := PoolRecordKey(lp, poolId, otoken);
    var poolRecord :=
      if prKey !in poolRecords then
        PoolRecord(PoolKey(lp, poolId), lpKey, otoken, collateral, premium, units, None)
      else
        var existing := poolRecords[prKey];
        existing.(
          collateral := existing.collateral + collateral,
          premiumReceived := existing.premiumReceived + premium,
          numberOfOTokens := existing.numberOfOTokens + units);
    (lpRecords[lpKey := record'], poolRecords[prKey := poolRecord])
  }

  /** handleOptionSettlementDistributed, provider part: the returned collateral comes off
      the provider's collateralized liquidity and nothing else on the record changes. */
  function RecordReturn(record: LPRecord, returned: real): (r: LPRecord)
    ensures record.liquidityCollateralized - r.liquidityCollateralized == returned
    ensures r.(liquidityCollateralized := record.liquidityCollateralized) == record
  {
    record.(liquidityCollateralized := record.liquidityCollateralized - returned)
  }

  /** handleOptionSettlementDistributed, pool-record part as the code stands: the returned
      amount is assigned on the loaded pool record, but that record is never saved, so
      the stored record is the one the sale left. */
  function SettleReturnAsWritten(records: map<PoolRecordKey, PoolRecord>, key: PoolRecordKey, returned: real)
    : (r: map<PoolRecordKey, PoolRecord>)
    requires key in records
    ensures key in r && r[key].returned == records[key].returned
  {
    records
  }

  /** On a record that has no returned amount yet, the as-written settlement leaves it
      without one: the collateral returned is not recorded anywhere on the pool. */
  lemma ReturnedLostAsWritten(key: PoolRecordKey, returned: real)
    ensures
      var records := map[key := ZeroPoolRecord(key)];
      SettleReturnAsWritten(records, key, returned)[key].returned != Some(returned)
  {
  }

  /** handleOptionSettlementDistributed, pool-record part as intended: the pool's record
      for the token stores the returned amount, and nothing else in the table changes. */
  function SettleReturn(records: map<PoolRecordKey, PoolRecord>, key: PoolRecordKey, returned: real)
    : (r: map<PoolRecordKey, PoolRecord>)
    requires key in records
    ensures r.Keys == records.Keys
    ensures r[key].returned == Some(returned)
    ensures r[key].(returned := records[key].returned) == records[key]
    ensures forall k :: k in records && k != key ==> r[k] == records[k]
  {
    records[key := records[key].(returned := Some(returned))]
  }
}

=== FILE: scenario.dfy ===
/** A worked history on one pool: deposit 100, deposit 50, sell an option for premium 10
    against collateral 80, then a settlement distribution returning 70 of the 80. */
module Scenario {
  import opened Wrappers
  import opened Entities
  import opened Ledger
  import opened Handlers

  /** The pool's size, locked, unlocked, net deposits and P&L percentage. */
  function Figures(p: Pool): (real, real, real, real, real) {
    (p.size, p.locked, p.unlocked, p.netDeposits, p.pnlPercentage)
  }

  /** The pool exists with these figures and this P&L, its initial balance is the first
      deposit of 100, and it has not joined a template. */
  ghost predicate At(s: Store, key: PoolKey, f: (real, real, real, real, real), pnl: real) {
    && key in s.pools
    && Figures(s.pools[key]) == f
    && s.pools[key].pnlTotal == pnl
    && s.pools[key].initialBalance == Some(100.0)
    && s.pools[key].template == None
  }

  lemma FirstDepositStep(s: Store, lp: Address, poolId: nat, otoken: Address, ts: Timestamp)
    requires PoolKey(lp, poolId) !in s.pools && PoolRecordKey(lp, poolId, otoken) !in s.poolRecords
    ensures var r := HandleDeposited(s, lp, poolId, 100.0, ts);
      && r.Success? && At(r.value, PoolKey(lp, poolId), (100.0, 0.0, 100.0, 0.0, 0.0), 0.0)
      && PoolRecordKey(lp, poolId, otoken) !in r.value.poolRecords
  {
    var p := ApplyDeposit(CreatePool(lp, poolId), 100.0).value;
    assert (p.pnlPercentage / 100.0 + 1.0) * 100.0 == 100.0;
  }

  lemma SecondDepositStep(s: Store, lp: Address, poolId: nat, ts: Timestamp)
    requires At(s, PoolKey(lp, poolId), (100.0, 0.0, 100.0, 0.0, 0.0), 0.0)
    ensures var r := HandleDeposited(s, lp, poolId, 50.0, ts);
      && r.Success? && At(r.value, PoolKey(lp, poolId), (150.0, 0.0, 150.0, 50.0, 0.0), 0.0)
      && r.value.poolRecords == s.poolRecords
  {
    var p := ApplyDeposit(s.pools[PoolKey(lp, poolId)], 50.0).value;
    assert (p.pnlPercentage / 100.0 + 1.0) * 100.0 == 100.0;
  }

  lemma SaleStep(s: Store, lp: Address, poolId: nat, otoken: Address, units: real, ts: Timestamp)
    requires At(s, PoolKey(lp, poolId), (150.0, 0.0, 150.0, 50.0, 0.0), 0.0)
    requires PoolRecordKey(lp, poolId, otoken) !in s.poolRecords
    ensures var r := HandleOptionsSold(s, lp, poolId, otoken, units, 10.0, 80.0, ts);
      && r.Success? && At(r.value, PoolKey(lp, poolId), (160.0, 80.0, 80.0, 50.0, 10.0), 10.0)
      && r.value.pools[PoolKey(lp, poolId)].utilization == 0.5
      && LPKey(lp, otoken) in r.value.lpRecords
      && PoolRecordKey(lp, poolId, otoken) in r.value.poolRecords
      && r.value.poolRecords[PoolRecordKey(lp, poolId, otoken)].collateral == 80.0
  {
    var p := ApplySale(s.pools[PoolKey(lp, poolId)], 10.0, 80.0).value;
    assert (p.pnlPercentage / 100.0 + 1.0) * 100.0 == 110.0;
    assert p.utilization * 160.0 == 80.0;
  }

  lemma SettlementStep(s: Store, lp: Address, poolId: nat, otoken: Address, ts: Timestamp)
    requires At(s, PoolKey(lp, poolId), (160.0, 80.0, 80.0, 50.0, 10.0), 10.0)
    requires LPKey(lp, otoken) in s.lpRecords
    requires PoolRecordKey(lp, poolId, otoken) in s.poolRecords
    requires s.poolRecords[PoolRecordKey(lp, poolId, otoken)].collateral == 80.0
    ensures var r := HandleOptionSettlementDistributed(s, lp, poolId, otoken, 70.0, ts);
      && r.Success? && At(r.value, PoolKey(lp, poolId), (150.0, 0.0, 150.0, 50.0, 0.0), 0.0)
      && r.value.pools[PoolKey(lp, poolId)].utilization == 0.0
  {
    var p := ApplySettlement(s.pools[PoolKey(lp, poolId)], 80.0, 70.0).value;
    assert (p.pnlPercentage / 100.0 + 1.0) * 100.0 == 100.0;
  }

  /** Starting from any store in which the pool and its record for the token do not yet
      exist (the empty store among them), the size runs 100, 150, 160, 150; locked 0, 0,
      80, 0; the P&L percentage 0, 0, 10, 0. The first deposit fixes the initial balance
      at 100 and is not a net deposit; the second is. The sale books the premium as P&L
      and half the pool is utilized; the settlement loses 10 of collateral, which cancels
      that P&L. */
  lemma WorkedScenario(s0: Store, lp: Address, poolId: nat, otoken: Address, units: real,
                       t1: Timestamp, t2: Timestamp, t3: Timestamp, t4: Timestamp)
    requires PoolKey(lp, poolId) !in s0.pools && PoolRecordKey(lp, poolId, otoken) !in s0.poolRecords
    ensures
      var key := PoolKey(lp, poolId);
      var r1 := HandleDeposited(s0, lp, poolId, 100.0, t1);
      && r1.Success? && At(r1.value, key, (100.0, 0.0, 100.0, 0.0, 0.0), 0.0)
      && var r2 := HandleDeposited(r1.value, lp, poolId, 50.0, t2);
      && r2.Success? && At(r2.value, key, (150.0, 0.0, 150.0, 50.0, 0.0), 0.0)
      && var r3 := HandleOptionsSold(r2.value, lp, poolId, otoken, units, 10.0, 80.0, t3);
      && r3.Success? && At(r3.value, key, (160.0, 80.0, 80.0, 50.0, 10.0), 10.0)
      && r3.value.pools[key].utilization == 0.5
      && var r4 := HandleOptionSettlementDistributed(r3.value, lp, poolId, otoken, 70.0, t4);
      && r4.Success? && At(r4.value, key, (150.0, 0.0, 150.0, 50.0, 0.0), 0.0)
      && r4.value.pools[key].utilization == 0.0
  {
    FirstDepositStep(s0, lp, poolId, otoken, t1);
    var s1 := HandleDeposited(s0, lp, poolId, 100.0, t1).value;
    SecondDepositStep(s1, lp, poolId, t2);
    var s2 := HandleDeposited(s1, lp, poolId, 50.0, t2).value;
    SaleStep(s2, lp, poolId, otoken, units, t3);
    var s3 := HandleOptionsSold(s2, lp, poolId, otoken, units, 10.0, 80.0, t3).value;
    SettlementStep(s3, lp, poolId, otoken, t4);
  }
}

=== FILE: snapshots.dfy ===
/** The snapshot writer: after each event on a pool, a copy of the pool's fields keyed by
    (lp, poolId, timestamp), followed by the capital update of the pool's template. */
module Snapshots {
  import opened Wrappers
  import opened Entities
  import opened Ledger
  import opened Templates

  /** The pool a snapshot describes, read back from the snapshot's own fields. */
  function PoolOf(s: PoolSnapshot): Pool {
    Pool(s.lp, s.poolId, s.size, s.locked, s.unlocked, s.utilization, s.netDeposits,
         s.initialBalance, s.pnlTotal, s.pnlTemplate, s.pnlPercentage, s.template)
  }

  function SnapshotKeyOf(pool: Pool, timestamp: Timestamp): SnapshotKey {
    SnapshotKey(pool.lp, pool.poolId, timestamp)
  }

  /** A snapshot copies every field of the pool, so the pool can be read back from it
      exactly, together with the event's amount and action code. */
  function TakeSnapshot(pool: Pool, timestamp: Timestamp, amount: real, action: Action): (s: PoolSnapshot)
    ensures PoolOf(s) == pool
    ensures s.currentPool == KeyOfPool(pool) && s.timestamp == timestamp
    ensures s.actionAmount == amount && ActionOfCode(s.actionType) == Some(action)
  {
    PoolSnapshot(
      pool.poolId, pool.lp, pool.size, pool.locked, pool.unlocked, pool.utilization,
      pool.template, timestamp, amount, Code(action), KeyOfPool(pool),
      pool.pnlTotal, pool.pnlTemplate, pool.pnlPercentage, pool.netDeposits, pool.initialBalance)
  }

  /** Writes the snapshot of `pool` (replacing one with the same key) and then applies the
      action to the pool's template. Only the snapshot and template tables change. */
  function CreatePoolSnapshot(s: Store, pool: Pool, timestamp: Timestamp, amount: real, action: Action)
    : (r: Result<Store, Fault>)
    ensures r.Success? <==> UpdateCapitalTemplate(s.templates, pool, amount, action).Success?
    ensures r.Failure? ==> r.error == MissingTemplate
    ensures r.Success? ==>
      && r.value.(snapshots := s.snapshots, templates := s.templates) == s
      && r.value.snapshots.Keys == s.snapshots.Keys + {SnapshotKeyOf(pool, timestamp)}
      && PoolOf(r.value.snapshots[SnapshotKeyOf(pool, timestamp)]) == pool
      && r.value.snapshots[SnapshotKeyOf(pool, timestamp)].actionAmount == amount
      && ActionOfCode(r.value.snapshots[SnapshotKeyOf(pool, timestamp)].actionType) == Some(action)
      && r.value.snapshots[SnapshotKeyOf(pool, timestamp)].timestamp == timestamp
      && r.value.snapshots[SnapshotKeyOf(pool, timestamp)].currentPool == KeyOfPool(pool)
      && r.value.snapshots[SnapshotKeyOf(pool, timestamp)] == TakeSnapshot(pool, timestamp, amount, action)
      && (forall k :: k in s.snapshots && k != SnapshotKeyOf(pool, timestamp) ==> r.value.snapshots[k] == s.snapshots[k])
      && r.value.templates == UpdateCapitalTemplate(s.templates, pool, amount, action).value
  {
    var snapshots := s.snapshots[SnapshotKeyOf(pool, timestamp) := TakeSnapshot(pool, timestamp, amount, action)];
    var templates :- UpdateCapitalTemplate(s.templates, pool, amount, action);
    Success(s.(snapshots := snapshots, templates := templates))
  }
}

=== FILE: templates.dfy ===
/** The template aggregator: one Template per (curve, criteriaSet) pair, holding the
    total size, the pool count and the P&L of the pools configured with that pair. */
module Templates {
  import opened Wrappers
  import opened Entities
  import opened Ledger

  /** What a template aggregates over its member pools. */
  datatype Measure = SizeOf | CountOf

  /** A pool's contribution to template `t`: its size, or one pool, when it belongs to `t`. */
  function Weight(p: Pool, t: TemplateKey, m: Measure): real {
    if p.template == Some(t) then (match m case SizeOf => p.size case CountOf => 1.0) else 0.0
  }

  /** Sum of the contributions of the pools stored under `ks` to template `t`. */
  ghost function SumOver(pools: map<PoolKey, Pool>, ks: set<PoolKey>, t: TemplateKey, m: Measure): real
    requires ks <= pools.Keys
    decreases ks
  {
    if ks == {} then 0.0
    else
      var k :| k in ks;
      Weight(pools[k], t, m) + SumOver(pools, ks - {k}, t, m)
  }

  /** Sum over every stored pool: the value template `t` must hold for measure `m`. */
  ghost function Total(pools: map<PoolKey, Pool>, t: TemplateKey, m: Measure): real {
    SumOver(pools, pools.Keys, t, m)
  }

  /** Every template holds exactly the size and the count of the pools assigned to it. */
  ghost predicate Aggregated(pools: map<PoolKey, Pool>, templates: map<TemplateKey, Template>) {
    forall t :: t in templates ==>
      && templates[t].size == Total(pools, t, SizeOf)
      && templates[t].numPools as real == Total(pools, t, CountOf)
  }

  /** Every template is stored under the key built from its own fields. */
  ghost predicate TemplatesKeyed(templates: map<TemplateKey, Template>) {
    forall t :: t in templates ==> KeyOfTemplate(templates[t]) == t
  }

  /** Any one pool can be taken out of the sum first. */
  lemma {:induction false} SumOverPick(pools: map<PoolKey, Pool>, ks: set<PoolKey>, x: PoolKey, t: TemplateKey, m: Measure)
    requires ks <= pools.Keys && x in ks
    ensures SumOver(pools, ks, t, m) == Weight(pools[x], t, m) + SumOver(pools, ks - {x}, t, m)
    decreases ks
  {
    var k :| k in ks && SumOver(pools, ks, t, m) == Weight(pools[k], t, m) + SumOver(pools, ks - {k}, t, m);
    if k != x {
      SumOverPick(pools, ks - {k}, x, t, m);
      SumOverPick(pools, ks - {x}, k, t, m);
      assert ks - {k} - {x} == ks - {x} - {k};
    }
  }

  /** The sum depends only on the contributions of the pools under `ks`. */
  lemma {:induction false} SumOverFrame(p1: map<PoolKey, Pool>, p2: map<PoolKey, Pool>, ks: set<PoolKey>, t: TemplateKey, m: Measure)
    requires ks <= p1.Keys && ks <= p2.Keys
    requires forall k :: k in ks ==> Weight(p1[k], t, m) == Weight(p2[k], t, m)
    ensures SumOver(p1, ks, t, m) == SumOver(p2, ks, t, m)
    decreases ks
  {
    if ks != {} {
      var x :| x in ks;
      SumOverPick(p1, ks, x, t, m);
      SumOverPick(p2, ks, x, t, m);
      SumOverFrame(p1, p2, ks - {x}, t, m);
    }
  }

  /** No member pool, no contribution. */
  lemma {:induction false} SumOverNoMembers(pools: map<PoolKey, Pool>, ks: set<PoolKey>, t: TemplateKey, m: Measure)
    requires ks <= pools.Keys
    requires forall k :: k in ks ==> pools[k].template != Some(t)
    ensures SumOver(pools, ks, t, m) == 0.0
    decreases ks
  {
    if ks != {} {
      var x :| x in ks;
      SumOverPick(pools, ks, x, t, m);
      SumOverNoMembers(pools, ks - {x}, t, m);
    }
  }

  /** Storing one pool changes each template's total by exactly that pool's change of
      contribution: the old one (if any) leaves, the new one joins. */
  lemma TotalAfterPut(pools: map<PoolKey, Pool>, x: PoolKey, p: Pool, t: TemplateKey, m: Measure)
    ensures Total(pools[x := p], t, m)
         == Total(pools, t, m) - (if x in pools then Weight(pools[x], t, m) else 0.0) + Weight(p, t, m)
  {
    var np := pools[x := p];
    SumOverPick(np, np.Keys, x, t, m);
    if x in pools {
      SumOverPick(pools, pools.Keys, x, t, m);
      assert np.Keys - {x} == pools.Keys - {x};
    } else {
      assert np.Keys - {x} == pools.Keys;
    }
    SumOverFrame(np, pools, np.Keys - {x}, t, m);
  }

  /** A template no pool is assigned to aggregates nothing. */
  lemma TotalNoMembers(pools: map<PoolKey, Pool>, t: TemplateKey, m: Measure)
    requires forall k :: k in pools ==> pools[k].template != Some(t)
    ensures Total(pools, t, m) == 0.0
  {
    SumOverNoMembers(pools, pools.Keys, t, m);
  }

  /** The stored template under `key`, or a zeroed one carrying the key's halves. */
  function LoadOrCreateTemplate(templates: map<TemplateKey, Template>, key: TemplateKey): Template {
    if key in templates then templates[key]
    else Template(key.curve, key.criteriaSet, 0.0, 0, 0.0)
  }

  /** The pool has no template, or its template is stored. */
  predicate TemplateResolves(templates: map<TemplateKey, Template>, pool: Pool) {
    pool.template.None? || pool.template.value in templates
  }

  /** Applies a capital action to the template of `pool`, if it has one: the template's
      size moves by the same signed amount as the pool's and its P&L as the pool's P&L. */
  function UpdateCapitalTemplate(templates: map<TemplateKey, Template>, pool: Pool, amount: real, action: Action)
    : (r: Result<map<TemplateKey, Template>, Fault>)
    ensures pool.template.None? ==> r == Success(templates)
    ensures pool.template.Some? ==> (r.Success? <==> pool.template.value in templates)
    ensures r.Success? <==> TemplateResolves(templates, pool)
    ensures r.Failure? ==> r.error == MissingTemplate
    ensures r.Success? ==> r.value.Keys == templates.Keys
    ensures r.Success? ==> forall u :: u in templates && Some(u) != pool.template ==> r.value[u] == templates[u]
    ensures r.Success? && pool.template.Some? ==>
      var t := pool.template.value;
      && r.value[t].size == templates[t].size + SizeDelta(action, amount)
      && r.value[t].pnl == CalculatePNL(templates[t].pnl, amount, action)
      && r.value[t].numPools == templates[t].numPools
      && KeyOfTemplate(r.value[t]) == KeyOfTemplate(templates[t])
    ensures r.Success? && IsConfig(action) ==> r.value == templates
  {
    match pool.template
    case None => Success(templates)
    case Some(t) =>
      if t !in templates then Failure(MissingTemplate)
      else
        var template := templates[t];
        var withPnl := template.(pnl := CalculatePNL(template.pnl, amount, action));
        Success(templates[t := withPnl.(size := withPnl.size + SizeDelta(action, amount))])
  }

  /** Does the selection leave the pool's (curve, criteriaSet) pair as it is? A pool
      without a template always takes the new pair. */
  predicate SamePair(past: Option<Template>, curve: Option<Hash>, criteriaSet: Option<Hash>) {
    past.Some? && past.value.curve == curve && past.value.criteriaSet == criteriaSet
  }

  /** Moves `pool` from its past template (if any) to the template of
      (curve, criteriaSet), creating the latter zeroed when absent. The pool's size and
      one count leave the past template and join the new one; the pool's
      template-scoped P&L restarts at zero. Returns the new templates and pool. */
  function UpdateConfigPoolTemplate(
    templates: map<TemplateKey, Template>, pool: Pool, past: Option<Template>,
    curve: Option<Hash>, criteriaSet: Option<Hash>)
    : (r: (map<TemplateKey, Template>, Pool))
    ensures SamePair(past, curve, criteriaSet) ==> r == (templates, pool)
    ensures !SamePair(past, curve, criteriaSet) ==>
      var key := TemplateKey(curve, criteriaSet);
      var joined := LoadOrCreateTemplate(templates, key);
      && r.1.template == Some(key) && r.1.pnlTemplate == 0.0
      && r.1.(template := pool.template, pnlTemplate := pool.pnlTemplate) == pool
      && r.0.Keys == templates.Keys + {key} + (if past.Some? then {KeyOfTemplate(past.value)} else {})
      && (past.None? || KeyOfTemplate(past.value) != key ==>
            && r.0[key].numPools == joined.numPools + 1
            && r.0[key].size == joined.size + pool.size
            && r.0[key].pnl == joined.pnl
            && KeyOfTemplate(r.0[key]) == KeyOfTemplate(joined))
      && (past.Some? ==>
            r.0[KeyOfTemplate(past.value)]
              == past.value.(numPools := past.value.numPools - 1, size := past.value.size - pool.size))
      && (forall u :: u in templates && u != key && (past.None? || u != KeyOfTemplate(past.value))
            ==> r.0[u] == templates[u])
  {
    if SamePair(past, curve, criteriaSet) then (templates, pool)
    else
      var key := TemplateKey(curve, criteriaSet);
      var template := LoadOrCreateTemplate(templates, key);
      var joined := template.(numPools := template.numPools + 1, size := template.size + pool.size);
      var withNew := templates[key := joined];
      var withPast :=
        match past
        case None => withNew
        case Some(p) =>
          withNew[KeyOfTemplate(p) := p.(numPools := p.numPools - 1, size := p.size - pool.size)];
      (withPast, pool.(template := Some(key), pnlTemplate := 0.0))
  }

  /** Moving a pool from T1 to T2 and straight back restores both templates' size and
      pool count, and the pool's membership; the pool's template P&L stays reset. */
  lemma ReassignRoundTrip(templates: map<TemplateKey, Template>, pool: Pool, k1: TemplateKey, k2: TemplateKey)
    requires TemplatesKeyed(templates)
    requires k1 in templates && pool.template == Some(k1) && k1 != k2
    ensures
      var (ts1, p1) := UpdateConfigPoolTemplate(templates, pool, Some(templates[k1]), k2.curve, k2.criteriaSet);
      var (ts2, p2) := UpdateConfigPoolTemplate(ts1, p1, Some(ts1[k2]), k1.curve, k1.criteriaSet);
      && ts2[k1].size == templates[k1].size
      && ts2[k1].numPools == templates[k1].numPools
      && (k2 in templates ==> ts2[k2].size == templates[k2].size && ts2[k2].numPools == templates[k2].numPools)
      && p2.template == Some(k1) && p2.size == pool.size && p2.pnlTemplate == 0.0
  {
    var (ts1, p1) := UpdateConfigPoolTemplate(templates, pool, Some(templates[k1]), k2.curve, k2.criteriaSet);
    assert KeyOfTemplate(templates[k1]) == k1;
    assert !SamePair(Some(templates[k1]), k2.curve, k2.criteriaSet);
    assert KeyOfTemplate(ts1[k2]) == k2;
    assert !SamePair(Some(ts1[k2]), k1.curve, k1.criteriaSet);
  }
}

=== FILE: wrappers.dfy ===
/** Optional values and results with an error, usable with `:-`. */
module Wrappers {

  /** An optional value: the store's nullable fields and not-found loads. */
  datatype Option<+T> = None | Some(value: T)

  /** The outcome of handling one event: the new value, or the fault that aborted it. */
  datatype Result<+R, +E> = Success(value: R) | Failure(error: E) {

    predicate IsFailure() {
      Failure?
    }

    function PropagateFailure<U>(): Result<U, E>
      requires Failure?
    {
      Failure(error)
    }

    function Extract(): R
      requires Success?
    {
      value
    }
  }
}
